=== FILE: README.md ===
# hotdrop client core in Dafny

hotdrop is a food-delivery web application. This project models the logic of its
React client that decides what a customer pays for, who may see which page, and
what the customer, the admin and the driver see of an order's progress.

- **Cart** (`client/src/contexts/CartContext.tsx`, `client/src/components/CartItem.tsx`).
  A cart is a sequence of lines, each keyed by the product id and the sorted
  `name:choice` pairs of its selected options. `addItem` merges into the line with
  the same key or appends a line. `removeItem` filters by key. `updateQuantity`
  removes a line at zero or less and otherwise recomputes its subtotal. The cart
  line's minus, plus and trash buttons call these with the line's own key.
- **Product page** (`client/src/pages/ProductDetailPage.tsx`). It records one
  chosen label per option name and refuses to add while a required option has no
  label. It prices each chosen label from the product's option list, zero when
  nothing matches. It shows `(base + options) * quantity`, and its quantity stepper
  never goes below one.
- **Checkout** (`client/src/pages/CheckoutPage.tsx`). It rejects a blank
  address, builds the order payload, and either clears the cart and opens the new
  order's page, or keeps the cart and shows the error.
- **Access control** (`client/src/components/ProtectedRoute.tsx`,
  `client/src/App.tsx`, `client/src/components/Navbar.tsx`). The route guard
  chooses between a spinner, the login page, the home page and the page itself.
  The route table fixes each path's guard. The navigation bar shows links by
  session and role.
- **Order status** (`client/src/components/OrderStatusBadge.tsx`,
  `client/src/pages/AdminDashboardPage.tsx`,
  `client/src/pages/DeliveryDashboardPage.tsx`,
  `client/src/pages/OrderDetailPage.tsx`). This covers:
  - the badge table;
  - the admin counts, table row and status selector;
  - the driver's list of orders, the Start and End buttons and the location
    message;
  - on the customer's order page: which driver locations it keeps, the ETA
    countdown and its `m:ss` label, the route it draws, and when the QR code and
    the live map show.

Money is `real`: exact arithmetic in place of JavaScript doubles. Coordinates are
the `Coord` wrapper around their text; the model never does arithmetic on them.
An order's status is the unchecked string the client receives. `Types.ParseStatus`
maps the six wire names to `OrderStatus`. Sessions carry `role: Option<string>`,
with `None` for a role that is not a string. The guard and the navbar treat that
case specially.

The cart functions take the key function as a parameter (`Cart.KeyFn`). The pages
pass `CartKey.CartItemKey`, which is `getCartItemKey`. All cart properties hold
for every key function. The properties that depend on the key's shape are proved
about `CartItemKey` itself: option order does not matter, and different products
never share a key.

## Model

| member | source | states |
|---|---|---|
| Types.ParseStatus | client/src/types/index.ts:29 | a string denotes status `s` exactly when it is `s`'s wire name |
| Types.StatusNameInjective | client/src/types/index.ts:29 | the six wire names are pairwise different |
| Decimal.NatToStringCanonical | client/src/pages/DeliveryDashboardPage.tsx:52 | a printed natural is a non-empty digit string with no leading zero |
| Decimal.ParseNatToString | client/src/pages/DeliveryDashboardPage.tsx:52 | reading the printed text of `n` back as a number gives `n` |
| Decimal.NatToStringInjective | client/src/contexts/CartContext.tsx:35 | different numbers print differently |
| Decimal.NatToStringOfParse | client/src/pages/OrderDetailPage.tsx:37 | a digit string without leading zeros is exactly how its value prints |
| Lex.Sort | client/src/contexts/CartContext.tsx:33 | `.sort()` with no comparator; Lex.SortSorted shows the result is sorted and a permutation of the input, and Lex.SortIgnoresOrder that it depends only on the multiset of tokens |
| Lex.SortSorted | client/src/contexts/CartContext.tsx:33 | `.sort()` returns its input's elements, each as often as before, in code-unit order |
| Lex.SortedUnique | client/src/contexts/CartContext.tsx:33 | two sorted lists with the same elements are identical |
| Lex.SortIgnoresOrder | client/src/contexts/CartContext.tsx:33 | the sorted result depends only on which elements there are, not on their order |
| Lex.InsertSorted | client/src/contexts/CartContext.tsx:33 | one insertion step keeps the list sorted and adds exactly the new element |
| Lex.LessEqTotal | client/src/contexts/CartContext.tsx:33 | any two strings are comparable in the sort order |
| Lex.LessEqAntisymmetric | client/src/contexts/CartContext.tsx:33 | strings that sort no later than each other are equal |
| Lex.LessEqTransitive | client/src/contexts/CartContext.tsx:33 | the sort order is transitive |
| Lex.Join | client/src/contexts/CartContext.tsx:34 | `join` of no parts is empty; otherwise the result starts with the first part and ends with the last |
| CartKey.Map | client/src/contexts/CartContext.tsx:32 | `map` keeps the length and puts `f` of the i-th element at position i |
| CartKey.MapRespectsPermutation | client/src/contexts/CartContext.tsx:31-32 | mapping a reordering of a list gives a reordering of the images |
| CartKey.KeyIgnoresOptionOrder | client/src/contexts/CartContext.tsx:27-36 | the same options selected in any order give the same cart key |
| CartKey.KeySeparatesProducts | client/src/contexts/CartContext.tsx:27-36 | two products with different non-negative ids never share a key, whatever their options |
| CartKey.CartItemKey | client/src/contexts/CartContext.tsx:27-36 | the cart key; it ignores option order (CartKey.KeyIgnoresOptionOrder) and separates products (CartKey.KeySeparatesProducts) |
| CartKey.LineKey | client/src/components/CartItem.tsx:8-14 | the cart line's own copy of the key function agrees with the cart's for every line |
| Cart.LineSubtotal | client/src/contexts/CartContext.tsx:57-63 | base price plus the option prices, times the quantity; ProductDetail.CartSubtotalIsDisplayTotal and Cart.MergeKeepsConsistent relate it to the page total and to merged lines |
| Cart.KeyIndex | client/src/contexts/CartContext.tsx:66-69 | `findIndex` returns the first line with the key, or -1 when no line has it |
| Cart.AddItem | client/src/contexts/CartContext.tsx:50-85 | after `addItem` the cart's keys are the old keys plus the new one; it grows by one line exactly when the key was new |
| Cart.AddNewKeyAppends | client/src/contexts/CartContext.tsx:80-83 | a new key appends the new line, priced `(base + options) * quantity`, after the unchanged old lines |
| Cart.AddExistingKeyMerges | client/src/contexts/CartContext.tsx:71-79 | an existing key adds the quantity and the subtotal to that line; no other line changes and the length stays |
| Cart.AddItemTotals | client/src/contexts/CartContext.tsx:50-85 | `totalItems` rises by the quantity added and `totalPrice` by the computed subtotal, in both branches |
| Cart.MergeKeepsConsistent | client/src/contexts/CartContext.tsx:57-79 | merging keeps subtotal = unit price × quantity, matching what `updateQuantity` would recompute |
| Cart.AddKeepsKeysUnique | client/src/contexts/CartContext.tsx:50-85 | `addItem` keeps every key on at most one line |
| Cart.RemoveItem | client/src/contexts/CartContext.tsx:87-95 | no remaining line has the removed key and the cart does not grow |
| Cart.RemoveAbsentIsIdentity | client/src/contexts/CartContext.tsx:87-95 | removing a key no line has leaves the cart as it was |
| Cart.RemoveDropsTheLine | client/src/contexts/CartContext.tsx:87-95 | with distinct keys, removing a line's key drops exactly that line |
| Cart.RemoveKeepsOrder | client/src/contexts/CartContext.tsx:89-93 | removal keeps the surviving lines in their order |
| Cart.RemoveMembership | client/src/contexts/CartContext.tsx:89-93 | a line survives removal exactly when it was in the cart and its key differs |
| Cart.ProductIdIgnored | client/src/contexts/CartContext.tsx:87-105 | the `productId` passed to `removeItem` and `updateQuantity` never changes the result |
| Cart.RemoveKeepsKeysUnique | client/src/contexts/CartContext.tsx:87-95 | removal keeps keys distinct and lowers both totals by the removed line |
| Cart.SetQuantity | client/src/contexts/CartContext.tsx:107-123 | matching lines get the new quantity and a subtotal of unit price × quantity; other lines are untouched |
| Cart.UpdateQuantity | client/src/contexts/CartContext.tsx:97-124 | at zero or less no line keeps the key; above zero the lines and their keys stay in place |
| Cart.UpdateNonPositiveRemoves | client/src/contexts/CartContext.tsx:102-105 | a quantity of zero or less is exactly `removeItem` |
| Cart.UpdatePositiveTotals | client/src/contexts/CartContext.tsx:107-123 | a positive quantity sets that line only; totals move by the difference and keys stay distinct |
| Cart.UpdateKeepsKeysUnique | client/src/contexts/CartContext.tsx:97-124 | `updateQuantity` keeps keys distinct for every quantity |
| Cart.ClearCart | client/src/contexts/CartContext.tsx:126-131 | after `clearCart` both totals are zero |
| Cart.TotalItems | client/src/contexts/CartContext.tsx:130 | the sum of the quantities; how each cart operation moves it is stated by the Cart totals lemmas |
| Cart.TotalPrice | client/src/contexts/CartContext.tsx:131 | the sum of the subtotals; how each cart operation moves it is stated by the Cart totals lemmas |
| Cart.TotalsOfUpdate | client/src/contexts/CartContext.tsx:130-131 | replacing one line moves each total by that line's difference |
| Cart.TotalsOfRemoval | client/src/contexts/CartContext.tsx:130-131 | dropping one line lowers each total by that line's amount |
| CartLine.Minus | client/src/components/CartItem.tsx:50-52 | minus on a line; its effect is stated by CartLine.MinusAtOneRemoves and CartLine.MinusAboveOneDecrements |
| CartLine.Plus | client/src/components/CartItem.tsx:61-63 | plus on a line; its effect is stated by CartLine.PlusIncrements |
| CartLine.Trash | client/src/components/CartItem.tsx:77 | trash on a line; its effect is stated by CartLine.TrashRemovesExactly |
| CartLine.MinusAtOneRemoves | client/src/components/CartItem.tsx:50-52 | minus on a line of quantity one removes exactly that line |
| CartLine.MinusAboveOneDecrements | client/src/components/CartItem.tsx:50-52 | minus above one lowers that line by one, recomputes its subtotal and touches no other line |
| CartLine.SetOnlyTheLine | client/src/components/CartItem.tsx:50-63 | a button's positive new quantity changes only the line it sits on |
| CartLine.PlusIncrements | client/src/components/CartItem.tsx:61-63 | plus raises that line by one and touches no other; a negative quantity would remove the line instead |
| CartLine.TrashRemovesExactly | client/src/components/CartItem.tsx:77 | trash removes exactly the line it sits on |
| ProductDetail.Lookup | client/src/pages/ProductDetailPage.tsx:58 | `selectedOptions[name]` is absent exactly when no entry has that name, and otherwise is that entry's label |
| ProductDetail.ChooseOption | client/src/pages/ProductDetailPage.tsx:48-50 | a known name keeps its place in the record; a new name is appended |
| ProductDetail.ChooseOptionLookup | client/src/pages/ProductDetailPage.tsx:48-50 | after a choice the name reads the new label and every other name reads what it read before |
| ProductDetail.ChooseOptionKeepsNamesDistinct | client/src/pages/ProductDetailPage.tsx:48-50 | each option name holds at most one label, for radio and check-box options alike |
| ProductDetail.ChooseOptionIdempotent | client/src/pages/ProductDetailPage.tsx:48-50 | choosing the same label again changes nothing |
| ProductDetail.FindOption | client/src/pages/ProductDetailPage.tsx:67 | `find` returns the first option with the name, or nothing when none has it |
| ProductDetail.FindChoice | client/src/pages/ProductDetailPage.tsx:68 | `find` returns the first choice with the label, or nothing exactly when none has it |
| ProductDetail.ChoicePrice | client/src/pages/ProductDetailPage.tsx:67-72 | an entry is priced at the price of the first matching choice of the first option with that name, and at 0 when the option or the label is unknown |
| ProductDetail.OptionsArray | client/src/pages/ProductDetailPage.tsx:65-75 | one selected option per entry, in entry order, with name, label and that price |
| ProductDetail.MissingRequired | client/src/pages/ProductDetailPage.tsx:56-62 | reports the first required option, in product order, with no non-empty label; none exactly when all are chosen |
| ProductDetail.AddToCart | client/src/pages/ProductDetailPage.tsx:52-79 | refuses with "Please select <name>" exactly when a required option is missing; otherwise the cart becomes `addItem` of the product, quantity and priced options, and the page goes to "/cart" |
| ProductDetail.OptionsPriceOfArray | client/src/pages/ProductDetailPage.tsx:65-89 | the options price the cart computes from the built array equals the page's own sum |
| ProductDetail.CartSubtotalIsDisplayTotal | client/src/pages/ProductDetailPage.tsx:77-90 | the cart subtotal of the added line is the total shown on the button |
| ProductDetail.AddToCartTotals | client/src/pages/ProductDetailPage.tsx:52-90 | a successful add raises the cart's totals by the quantity and by the total shown |
| ProductDetail.DisplayTotal | client/src/pages/ProductDetailPage.tsx:90 | the total on the add button; ProductDetail.CartSubtotalIsDisplayTotal shows it is the subtotal the cart records |
| ProductDetail.StepDown | client/src/pages/ProductDetailPage.tsx:192 | the larger of 1 and one less: exactly 1 for any quantity up to 2, and one less for any quantity of 2 or more |
| ProductDetail.StepUp | client/src/pages/ProductDetailPage.tsx:202 | plus raises the quantity by one; ProductDetail.StepDownUndoesStepUp relates it to minus |
| ProductDetail.StepDownUndoesStepUp | client/src/pages/ProductDetailPage.tsx:192-202 | minus undoes plus for every quantity the stepper shows |
| ProductDetail.PressesStayPositive | client/src/pages/ProductDetailPage.tsx:17 | from 1, no run of presses takes the quantity below 1 |
| Checkout.Trim | client/src/pages/CheckoutPage.tsx:105 | `trim` never lengthens the text, and what is left starts and ends with a non-space |
| Checkout.TrimStart | client/src/pages/CheckoutPage.tsx:105 | drops exactly the leading white space: a suffix, starting with a non-space |
| Checkout.TrimEnd | client/src/pages/CheckoutPage.tsx:105 | drops exactly the trailing white space: a prefix, ending with a non-space |
| Checkout.BlankIffAllSpace | client/src/pages/CheckoutPage.tsx:105 | the address is refused exactly when all its characters are white space |
| Checkout.BuildPayload | client/src/pages/CheckoutPage.tsx:111-123 | each line copied in order; the total is the cart's `totalPrice`; address as typed; both coordinates present exactly with a pin; notes left out exactly when empty |
| Checkout.PayloadTotalIsItemSum | client/src/pages/CheckoutPage.tsx:111-118 | the payload total is the sum of its own items' subtotals |
| Checkout.Submit | client/src/pages/CheckoutPage.tsx:101-131 | blank address: error and nothing sent; success: cart emptied, go to the order page; failure: cart kept, message or the fallback |
| Checkout.CartClearedOnlyOnSuccess | client/src/pages/CheckoutPage.tsx:101-131 | a non-empty cart is emptied exactly when the address is not blank and the order was created |
| Checkout.OrderPath | client/src/pages/CheckoutPage.tsx:127 | the order page's path starts with `/orders/` and has an id after it |
| Checkout.OrderPathNamesOrder | client/src/pages/CheckoutPage.tsx:127 | the page opened after success is `/orders/` followed by the new order's id, readable back as it |
| Checkout.EmptyCartRedirect | client/src/pages/CheckoutPage.tsx:51-55 | the page goes to "/cart" exactly when the cart is empty |
| Access.Decide | client/src/components/ProtectedRoute.tsx:11-45 | spinner while pending; once loaded, the page shows exactly when the guard admits the session; login exactly for a refused guest; home exactly for a refused signed-in user |
| Access.Admits | client/src/components/ProtectedRoute.tsx:23-43 | who passes a guard once the session is known; Access.Decide renders exactly the sessions it admits |
| Access.GuestOutcome | client/src/components/ProtectedRoute.tsx:23-25 | a guest sees the page exactly when guests are allowed, else the login page |
| Access.NonStringRoleRenders | client/src/components/ProtectedRoute.tsx:27-43 | a role that is not a string passes both role checks |
| Access.RoleRefusalSendsHome | client/src/components/ProtectedRoute.tsx:27-43 | a string role outside `roles` or inside `excludeRoles` goes home |
| Routes.GuardOf | client/src/App.tsx:24-99 | the guard around each route; the Routes lemmas state what each guard admits |
| Routes.Visit | client/src/App.tsx:24-99 | public routes render at once; a guarded route shows the spinner exactly while the session loads |
| Routes.PublicRoutesRender | client/src/App.tsx:24-49 | `/`, `/login`, `/signup` and `/cart` render for everyone |
| Routes.DashboardRoutes | client/src/App.tsx:84-99 | `/admin` and `/delivery` render exactly for their role or a non-string role; guests go to login |
| Routes.OrderRoutes | client/src/App.tsx:60-75 | `/orders` pages need a session and send admin and delivery home |
| Routes.ProductRoutes | client/src/App.tsx:27-48 | product pages admit guests and send exactly admin and delivery home |
| Routes.SignedInRoutes | client/src/App.tsx:52-83 | `/checkout` and `/profile` admit any signed-in user and send guests to login |
| Navbar.View | client/src/components/Navbar.tsx:33-98 | Menu always; Orders, profile and sign-out exactly when signed in; Admin and Deliveries by role; badge exactly for a positive count |
| Navbar.DashboardLinksAdmitted | client/src/components/Navbar.tsx:48-63 | the Admin and Deliveries links lead to pages their guards render, and never show together |
| Navbar.ShownLinksPassLogin | client/src/components/Navbar.tsx:39-47 | no link shown to a signed-in user leads to the login page |
| Navbar.OrdersLinkShownButRefused | client/src/components/Navbar.tsx:41-47 | admin and delivery see an Orders link whose route sends them home |
| Navbar.MenuLinkShownButRefused | client/src/components/Navbar.tsx:33-38 | admin and delivery see a Menu link whose route sends them home |
| StatusBadge.ConfigOf | client/src/components/OrderStatusBadge.tsx:4-11 | the badge table; StatusBadge.LabelsDistinct shows each label names one status |
| StatusBadge.BadgeFor | client/src/components/OrderStatusBadge.tsx:4-14 | each status gets its own table entry; any other string gets the pending entry |
| StatusBadge.LabelsDistinct | client/src/components/OrderStatusBadge.tsx:4-11 | a badge label names exactly one status |
| StatusBadge.PendingLabelMeansPendingOrUnknown | client/src/components/OrderStatusBadge.tsx:14 | "Pending" shows exactly for "pending" and for strings that are no status |
| AdminDashboard.AdminColor | client/src/pages/AdminDashboardPage.tsx:32-39 | a colour exists exactly for the six wire names |
| AdminDashboard.AdminColorMatchesBadge | client/src/pages/AdminDashboardPage.tsx:32-39 | the admin table colours each status as the badge does |
| AdminDashboard.Count | client/src/pages/AdminDashboardPage.tsx:83-85 | a status count never exceeds the number of orders |
| AdminDashboard.CountAppend | client/src/pages/AdminDashboardPage.tsx:83-85 | counts add over concatenation, so each figure is an exact tally |
| AdminDashboard.ThreeCountsBounded | client/src/pages/AdminDashboardPage.tsx:83-85 | counts of three different statuses add up to at most the number of orders |
| AdminDashboard.StatsOf | client/src/pages/AdminDashboardPage.tsx:81-86 | all figures are 0 before the orders load; otherwise the total is the number of orders and each other figure is the count of its status |
| AdminDashboard.PositionsSnoc | client/src/pages/AdminDashboardPage.tsx:83-85 | an order added at the end adds its position to the matching positions exactly when its status matches |
| AdminDashboard.CountIsTally | client/src/pages/AdminDashboardPage.tsx:83-85 | each count equals the number of positions holding an order with that status |
| AdminDashboard.StatsBounded | client/src/pages/AdminDashboardPage.tsx:81-86 | pending + preparing + delivered never exceeds the total |
| AdminDashboard.OnOrderCreated | client/src/pages/AdminDashboardPage.tsx:49-52 | a created order goes in front of the earlier ones |
| AdminDashboard.ReplayIsMostRecentFirst | client/src/pages/AdminDashboardPage.tsx:49-52 | after any run of creations the list is newest first, ahead of the previous list |
| AdminDashboard.ReplaceFirst | client/src/pages/AdminDashboardPage.tsx:183 | a string-pattern `replace` keeps the length; the two lemmas below pin which character changes |
| AdminDashboard.ReplaceFirstWithout | client/src/pages/AdminDashboardPage.tsx:183 | `replace` leaves text without the pattern unchanged |
| AdminDashboard.ReplaceFirstAt | client/src/pages/AdminDashboardPage.tsx:183 | `replace` changes only the first `_` and keeps the text around it |
| AdminDashboard.StatusDisplayAsWrittenKeepsUnderscore | client/src/pages/AdminDashboardPage.tsx:183 | the status column as written shows "out for_delivery" |
| AdminDashboard.ReplaceAll | client/src/pages/AdminDashboardPage.tsx:183 | every `_` becomes a space and every other character stays |
| AdminDashboard.StatusDisplay | client/src/pages/AdminDashboardPage.tsx:183 | the intended status column contains no `_` |
| AdminDashboard.StatusDisplayDiffers | client/src/pages/AdminDashboardPage.tsx:183 | the written and the intended column differ on exactly one status, out for delivery |
| AdminDashboard.CustomerColumn | client/src/pages/AdminDashboardPage.tsx:174 | the customer column is a prefix of the user id of at most eight characters, then "..." |
| AdminDashboard.StatusDisplayAsWritten | client/src/pages/AdminDashboardPage.tsx:183 | the status column as the page writes it has the status's length; its one difference from the status is shown by StatusDisplayAsWrittenKeepsUnderscore |
| AdminDashboard.RowOf | client/src/pages/AdminDashboardPage.tsx:171-184 | a table row as rendered: the order's id, a customer column ending in "...", a colour exactly for the six wire names, a status text of the status's length |
| AdminDashboard.RowIntended | client/src/pages/AdminDashboardPage.tsx:171-184 | the row with the corrected status column: same id, and a status text of the status's length with no `_` |
| AdminDashboard.RowDiffersOnlyOutForDelivery | client/src/pages/AdminDashboardPage.tsx:171-184 | the rendered and the corrected row agree except in the status text, and agree fully exactly when the status is not out for delivery |
| AdminDashboard.StatusChange | client/src/pages/AdminDashboardPage.tsx:65-67 | the request names the row's order and the chosen value |
| AdminDashboard.SelectorOffersEveryStatus | client/src/pages/AdminDashboardPage.tsx:196-201 | the selector offers each of the six statuses exactly once and nothing else |
| AdminDashboard.NoTransitionRestriction | client/src/pages/AdminDashboardPage.tsx:188-190 | the request does not depend on the order's current status |
| DeliveryDashboard.DeliveryOrders | client/src/pages/DeliveryDashboardPage.tsx:26-28 | an order is listed exactly when it is ready or out for delivery |
| DeliveryDashboard.DeliveryOrdersAppend | client/src/pages/DeliveryDashboardPage.tsx:26-28 | the list keeps the orders' relative order |
| DeliveryDashboard.DeliveryOrdersCount | client/src/pages/DeliveryDashboardPage.tsx:26-28 | the list is as long as the ready and out-for-delivery counts together |
| DeliveryDashboard.LocationUpdate | client/src/pages/DeliveryDashboardPage.tsx:47-56 | a message goes out exactly with an order and a position, carrying that position |
| DeliveryDashboard.LocationUpdateNamesOrder | client/src/pages/DeliveryDashboardPage.tsx:52 | the message's order id is the order's number in canonical decimal |
| DeliveryDashboard.ButtonFor | client/src/pages/DeliveryDashboardPage.tsx:203-215 | "Currently Delivering" exactly on the selected order; Start is enabled exactly with a position |
| DeliveryDashboard.PressStart | client/src/pages/DeliveryDashboardPage.tsx:209-215 | an enabled Start selects that order; any other button (disabled for want of a position, or the selected order's own "Currently Delivering") changes nothing |
| DeliveryDashboard.PressEnd | client/src/pages/DeliveryDashboardPage.tsx:130-136 | End Delivery leaves no order selected |
| DeliveryDashboard.StartThenEmits | client/src/pages/DeliveryDashboardPage.tsx:47-66 | after Start a message goes out exactly with a position; after End none does |
| DeliveryDashboard.CardBadge | client/src/pages/DeliveryDashboardPage.tsx:164-174 | "Ready for Pickup" for ready and "Out for Delivery" for anything else |
| DeliveryDashboard.CardBadgeColorIsAdminColor | client/src/pages/DeliveryDashboardPage.tsx:164-170 | a listed card uses the admin table's colour for its status |
| OrderDetail.ParamNumber | client/src/pages/OrderDetailPage.tsx:37 | the route parameter is read as a number exactly when it is a non-empty digit string, and then as the value of its digits |
| OrderDetail.ExpectedIdAsWritten | client/src/pages/OrderDetailPage.tsx:48-55 | as written, the page listens for exactly the raw parameter text, and not at all when it is empty |
| OrderDetail.ExpectedId | client/src/pages/OrderDetailPage.tsx:52 | the intended id is the canonical text of the order the page joined |
| OrderDetail.OnDriverLocation | client/src/pages/OrderDetailPage.tsx:54-58 | an event for the expected order replaces the stored location; any other is ignored |
| OrderDetail.ReplayIgnoresOthers | client/src/pages/OrderDetailPage.tsx:54-58 | events for other orders never change what the page holds |
| OrderDetail.ReplayKeepsLastAccepted | client/src/pages/OrderDetailPage.tsx:54-58 | after a run of events the page holds the last one for its order |
| OrderDetail.ExpectedIdAgreesOnCanonical | client/src/pages/OrderDetailPage.tsx:52-55 | for a parameter without leading zeros the written and intended tests agree |
| OrderDetail.AcceptsEmittedLocation | client/src/pages/OrderDetailPage.tsx:52-55 | the intended test keeps a dashboard message exactly when it is for the order the page joined |
| OrderDetail.AsWrittenDropsOwnOrder | client/src/pages/OrderDetailPage.tsx:52-55 | at `/orders/042` the page as written drops the message for order 42, which the intended test keeps |
| OrderDetail.Tick | client/src/pages/OrderDetailPage.tsx:94-97 | a tick never goes below 0, gives 0 without an ETA or once it has run out, and lowers a positive ETA by one second |
| OrderDetail.TicksCountDown | client/src/pages/OrderDetailPage.tsx:93-98 | n ticks from e seconds leave e - n, or 0 once the time is up |
| OrderDetail.CountdownRunning | client/src/pages/OrderDetailPage.tsx:85-91 | the countdown runs exactly with a positive ETA on an order out for delivery; OrderDetail.CountdownStops shows each tick lowers it and it stops after its seconds |
| OrderDetail.CountdownStops | client/src/pages/OrderDetailPage.tsx:85-101 | a running countdown strictly decreases and stops after as many ticks as it had seconds |
| OrderDetail.EtaLabel | client/src/pages/OrderDetailPage.tsx:280 | "Arriving Soon!" at 0 or below; otherwise "~" and a time token that reads back as the ETA |
| TimeToken.JsRem | client/src/pages/OrderDetailPage.tsx:106 | JavaScript's `%` is strictly between -60 and 60 and agrees with the mathematical remainder for non-negative counts |
| TimeToken.PadStart2 | client/src/pages/OrderDetailPage.tsx:107 | `padStart(2, "0")` keeps longer text and zero-fills shorter text to two characters |
| TimeToken.TwoDigits | client/src/pages/OrderDetailPage.tsx:106-107 | seconds below 100 print as two digits that read back as themselves |
| TimeToken.JoinedParts | client/src/pages/OrderDetailPage.tsx:107 | any digit string and two digits below 60 around a colon read back as 60 times the first plus the second |
| TimeToken.ParseJoined | client/src/pages/OrderDetailPage.tsx:107 | `m:ss` reads back as 60 m + ss |
| TimeToken.FormatTimeToken | client/src/pages/OrderDetailPage.tsx:104-108 | the countdown token; TimeToken.FormatParseRoundTrip shows a non-negative count reads back from it |
| TimeToken.FormatParts | client/src/pages/OrderDetailPage.tsx:104-108 | for a non-negative count the token is the printed minutes, a colon and the padded seconds |
| TimeToken.PartsRoundTrip | client/src/pages/OrderDetailPage.tsx:104-108 | printed minutes and seconds read back as the count they came from |
| TimeToken.FormatParseRoundTrip | client/src/pages/OrderDetailPage.tsx:104-108 | every non-negative count formats as `m:ss` with ss below 60, and reads back as the count |
| TimeToken.FormatTimeTokenInjective | client/src/pages/OrderDetailPage.tsx:104-108 | different non-negative counts show different tokens |
| OrderDetail.InitialRouteStart | client/src/pages/OrderDetailPage.tsx:71-77 | the first route starts at the restaurant, exactly for an order out for delivery with no driver location and no ETA |
| OrderDetail.Destination | client/src/pages/OrderDetailPage.tsx:118-123 | each coordinate comes from the order when it is a non-empty string, else from the offset start |
| OrderDetail.Ceil | client/src/pages/OrderDetailPage.tsx:146 | `Math.ceil` is the least integer not below its argument |
| OrderDetail.FromGeoJson | client/src/pages/OrderDetailPage.tsx:138-140 | each `[lng, lat]` pair becomes the point `[lat, lng]`, in order |
| OrderDetail.GeoJsonRoundTrip | client/src/pages/OrderDetailPage.tsx:138-140 | swapping back gives the service's pairs: the conversion loses nothing |
| OrderDetail.ApplyRoute | client/src/pages/OrderDetailPage.tsx:111-165 | no order: nothing; a found route is drawn and a non-zero duration, rounded up, becomes the ETA; otherwise a straight line and no ETA |
| OrderDetail.ShowQr | client/src/pages/OrderDetailPage.tsx:240 | the QR code shows exactly for an order ready or out for delivery |
| OrderDetail.QrValue | client/src/pages/OrderDetailPage.tsx:250 | the QR code encodes the order id in digits that read back as the id |
| OrderDetail.ShowLiveTracking | client/src/pages/OrderDetailPage.tsx:260 | the live map shows exactly with a driver location for an order out for delivery |
| OrderDetail.LiveTrackingShowsQr | client/src/pages/OrderDetailPage.tsx:240-260 | whenever the live map shows, so does the QR code |

## Left out

- Local storage, the socket connection, `fetch`, timers, geolocation, maps and rendering are not modelled. The socket events, the create call's answer, the routing service's answer and the position are parameters.
- Floating-point money is not modelled. Prices and subtotals are exact `real`s, and `parseFloat(product.price)` is taken as already parsed.
- Coordinates are opaque text. The `+ 0.01` degree offset of the demo destination is the `offset` parameter of `OrderDetail.Destination`, and `parseFloat` of the stored coordinates is not modelled.
- ProductDetail.ChooseOption: the entries keep the order in which names were first chosen, as `Object.entries` reports them for ordinary names. JavaScript lists integer-like option names first; that is not modelled.
- ProductDetail.OptionsArray: it follows the same entry order, so for integer-like option names its order, and the left-to-right order of the price sum, may differ from JavaScript's.
- `Lex.SortSorted` compares characters as Dafny `char`s. JavaScript's `sort` compares UTF-16 code units; the two differ only outside the Basic Multilingual Plane.
- StatusBadge.BadgeFor: a status string that names an `Object.prototype` member (such as "constructor") does not get the fallback in JavaScript; the model gives it the pending entry.
- ProductDetail.Lookup: a name that is an `Object.prototype` member (such as "toString") finds an inherited function in JavaScript; the model finds only chosen entries.
- ProductDetail.MissingRequired: for the same reason a required option named after a prototype member counts as chosen in JavaScript (`client/src/pages/ProductDetailPage.tsx:58`); the model reports it missing.
- AdminDashboard.AdminColor: a status string naming a prototype member (such as "constructor") gets an inherited value in JavaScript; the model gives it no colour.
- AdminDashboard.CustomerColumn: `substring` counts UTF-16 code units; the model counts Dafny characters, which differ only outside the Basic Multilingual Plane.
- OrderDetail.ParamNumber: reads only digit strings; what `Number` makes of other route parameters (signs, spaces, exponents, `NaN`) is not modelled. `Number` also loses precision above 2^53, while the model reads any digit string exactly.
- OrderDetail.ApplyRoute: a `NaN` duration is not modelled, since durations are reals.
- OrderDetail.EtaLabel: the ETA is an integer, as `Math.ceil` and the one-second tick keep it; a fractional ETA, and the text JavaScript would print for it, are not modelled.
- The route effect driven by a new driver location (`client/src/pages/OrderDetailPage.tsx:79-83`) is `OrderDetail.ApplyRoute` with the driver's position as the start. It has no separate member.
- The pages not listed above (home, login, sign-up, products, cart page, orders, profile), the hooks, the API client, the QR scanner and the whole server are not part of this model.

## Findings

| source | as written | input that shows it | evidently intended | confidence | as-written member | corrected member |
|---|---|---|---|---|---|---|
| client/src/pages/AdminDashboardPage.tsx:183 | `order.status.replace('_', ' ')` replaces only the first underscore | status "out_for_delivery" shows as "out for_delivery" | every underscore shown as a space: "out for delivery" | high, not executed | AdminDashboard.StatusDisplayAsWritten, shown by AdminDashboard.StatusDisplayAsWrittenKeepsUnderscore | AdminDashboard.StatusDisplay (used by AdminDashboard.RowIntended), proved by AdminDashboard.StatusDisplayDiffers and AdminDashboard.RowDiffersOnlyOutForDelivery |
| client/src/pages/OrderDetailPage.tsx:52-55 | the page joins the room of `Number(orderId)` but keeps a location only when `location.orderId === orderId`, comparing with the raw parameter | at `/orders/042` the page loads order 42 and joins its room, but drops the message with order id "42" that the driver's dashboard sends | compare with the id of the order the page joined, written as the dashboard writes it | medium, not executed | OrderDetail.ExpectedIdAsWritten, shown by OrderDetail.AsWrittenDropsOwnOrder | OrderDetail.ExpectedId, proved by OrderDetail.AcceptsEmittedLocation and OrderDetail.ExpectedIdAgreesOnCanonical |

=== FILE: access.dfy ===
/**
 * The route guard (`client/src/components/ProtectedRoute.tsx`): from the
 * session's loading flag, the session and the guard's settings, one of four
 * outcomes.
 */
module Access {
  import opened Wrappers
  import opened Types

  /** A guard's props; `None` is an absent `roles` or `excludeRoles`, `allowGuest` defaults to false. */
  datatype Guard = Guard(roles: Option<seq<string>>, excludeRoles: Option<seq<string>>, allowGuest: bool)

  /** What a guarded route shows. */
  datatype Decision = Spinner | ToLogin | ToHome | Render

  /** The guard with no props: any signed-in user. */
  const SignedIn := Guard(None, None, false)

  /**
   * Who the guard lets through once the session is known: a guest only when
   * guests are allowed; a user whose role is a string only when it is in
   * `roles` (if given) and not in `excludeRoles` (if given); a user whose
   * role is not a string always.
   */
  predicate Admits(session: Option<Session>, g: Guard) {
    match session
    case None => g.allowGuest
    case Some(s) =>
      match s.role
      case None => true
      case Some(role) =>
        (g.roles.None? || role in g.roles.value) && (g.excludeRoles.None? || role !in g.excludeRoles.value)
  }

  /** `ProtectedRoute`: spinner, then login, then the two role checks, then the page. */
  function Decide(pending: bool, session: Option<Session>, g: Guard): (d: Decision)
    ensures pending ==> d == Spinner
    ensures !pending ==> (d == Render <==> Admits(session, g))
    ensures d == ToLogin <==> !pending && session.None? && !g.allowGuest
    ensures d == ToHome ==> !pending && session.Some? && session.value.role.Some?
    ensures d == ToHome <==> !pending && session.Some? && !Admits(session, g)
  {
    if pending then Spinner
    else if session.None? && !g.allowGuest then ToLogin
    else if g.roles.Some? && session.Some? && session.value.role.Some? && session.value.role.value !in g.roles.value then ToHome
    else if g.excludeRoles.Some? && session.Some? && session.value.role.Some? && session.value.role.value in g.excludeRoles.value then ToHome
    else Render
  }

  /** A guest is let through exactly when guests are allowed, whatever the role lists say. */
  lemma GuestOutcome(g: Guard)
    ensures Decide(false, None, g) == (if g.allowGuest then Render else ToLogin)
  {
  }

  /** A role that is not a string skips both role checks, even on a route restricted to other roles. */
  lemma NonStringRoleRenders(userId: string, g: Guard)
    ensures Decide(false, Some(Session(userId, None)), g) == Render
  {
  }

  /** A string role outside `roles`, or inside `excludeRoles`, is sent home. */
  lemma RoleRefusalSendsHome(s: Session, g: Guard)
    requires s.role.Some?
    requires (g.roles.Some? && s.role.value !in g.roles.value)
          || (g.excludeRoles.Some? && s.role.value in g.excludeRoles.value)
    ensures Decide(false, Some(s), g) == ToHome
  {
  }
}

=== FILE: admin_dashboard.dfy ===
/**
 * The admin dashboard (`client/src/pages/AdminDashboardPage.tsx`): colour
 * table, counts, the list of newly created orders, the table row and the
 * status selector.
 */
module AdminDashboard {
  import opened Wrappers
  import opened Types
  import opened StatusBadge

  /** The colour table's entry for a status string; `None` where the table has no entry. */
  function AdminColor(status: string): (c: Option<string>)
    ensures c.Some? <==> ParseStatus(status).Some?
  {
    if status == "pending" then Some("bg-yellow-100 text-yellow-800")
    else if status == "preparing" then Some("bg-blue-100 text-blue-800")
    else if status == "ready" then Some("bg-purple-100 text-purple-800")
    else if status == "out_for_delivery" then Some("bg-indigo-100 text-indigo-800")
    else if status == "delivered" then Some("bg-green-100 text-green-800")
    else if status == "cancelled" then Some("bg-red-100 text-red-800")
    else None
  }

  /** The admin table and the badge colour every status the same way. */
  lemma AdminColorMatchesBadge(s: OrderStatus)
    ensures AdminColor(StatusName(s)) == Some(ConfigOf(s).color)
  {
  }

  /** The number of orders whose status string is `status`. */
  function Count(orders: seq<Order>, status: string): (n: nat)
    ensures n <= |orders|
  {
    if |orders| == 0 then 0
    else Count(orders[..|orders| - 1], status) + (if orders[|orders| - 1].status == status then 1 else 0)
  }

  datatype Stats = Stats(total: nat, pending: nat, preparing: nat, delivered: nat)

  /** `stats`; before the orders load every figure is 0. */
  function StatsOf(orders: Option<seq<Order>>): (st: Stats)
    ensures orders.None? ==> st == Stats(0, 0, 0, 0)
    ensures orders.Some? ==> st.total == |orders.value|
    ensures orders.Some? ==> (st.pending == Count(orders.value, "pending")
      && st.preparing == Count(orders.value, "preparing")
      && st.delivered == Count(orders.value, "delivered"))
  {
    match orders
    case None => Stats(0, 0, 0, 0)
    case Some(os) => Stats(|os|, Count(os, "pending"), Count(os, "preparing"), Count(os, "delivered"))
  }

  /** The positions of the orders whose status string is `status`. */
  function Positions(orders: seq<Order>, status: string): set<int> {
    set i | 0 <= i < |orders| && orders[i].status == status
  }

  /** Adding an order at the end adds its position exactly when its status matches. */
  lemma PositionsSnoc(orders: seq<Order>, status: string)
    requires |orders| > 0
    ensures var n := |orders|;
      Positions(orders, status)
        == Positions(orders[..n - 1], status) + (if orders[n - 1].status == status then {n - 1} else {})
  {
    var n := |orders|;
    assert forall i :: 0 <= i < n - 1 ==> orders[..n - 1][i] == orders[i];
  }

  /** Each figure is an exact tally: the number of positions holding an order with that status. */
  lemma {:induction false} CountIsTally(orders: seq<Order>, status: string)
    ensures Count(orders, status) == |Positions(orders, status)|
  {
    if |orders| > 0 {
      var n := |orders|;
      CountIsTally(orders[..n - 1], status);
      PositionsSnoc(orders, status);
      assert n - 1 !in Positions(orders[..n - 1], status);
    }
  }

  /** Counts of three different statuses never add up to more than the orders. */
  lemma {:induction false} ThreeCountsBounded(orders: seq<Order>, a: string, b: string, c: string)
    requires a != b && b != c && a != c
    ensures Count(orders, a) + Count(orders, b) + Count(orders, c) <= |orders|
  {
    if |orders| > 0 {
      ThreeCountsBounded(orders[..|orders| - 1], a, b, c);
    }
  }

  /** Counts split over concatenation, so each figure is an exact tally. */
  lemma {:induction false} CountAppend(a: seq<Order>, b: seq<Order>, status: string)
    ensures Count(a + b, status) == Count(a, status) + Count(b, status)
  {
    if |b| > 0 {
      assert (a + b)[..|a + b| - 1] == a + b[..|b| - 1];
      CountAppend(a, b[..|b| - 1], status);
    } else {
      assert a + b == a;
    }
  }

  /** The pending, preparing and delivered figures together stay within the total. */
  lemma StatsBounded(orders: Option<seq<Order>>)
    ensures StatsOf(orders).pending + StatsOf(orders).preparing + StatsOf(orders).delivered <= StatsOf(orders).total
  {
    if orders.Some? {
      ThreeCountsBounded(orders.value, "pending", "preparing", "delivered");
    }
  }

  /** `order-created`: the new order goes in front. */
  function OnOrderCreated(newOrders: seq<Order>, order: Order): (r: seq<Order>)
    ensures |r| == |newOrders| + 1 && r[0] == order && r[1..] == newOrders
  {
    [order] + newOrders
  }

  /** Replaying creation events one after another. */
  function ReplayCreated(newOrders: seq<Order>, events: seq<Order>): seq<Order>
    decreases |events|
  {
    if |events| == 0 then newOrders else ReplayCreated(OnOrderCreated(newOrders, events[0]), events[1..])
  }

  function Reverse<T>(s: seq<T>): (r: seq<T>)
    ensures |r| == |s| && forall i :: 0 <= i < |s| ==> r[i] == s[|s| - 1 - i]
  {
    if |s| == 0 then [] else Reverse(s[1..]) + [s[0]]
  }

  /** After any run of events the list holds them most recent first, ahead of the earlier ones. */
  lemma {:induction false} ReplayIsMostRecentFirst(newOrders: seq<Order>, events: seq<Order>)
    ensures ReplayCreated(newOrders, events) == Reverse(events) + newOrders
    decreases |events|
  {
    if |events| > 0 {
      ReplayIsMostRecentFirst([events[0]] + newOrders, events[1..]);
      assert Reverse(events) == Reverse(events[1..]) + [events[0]];
    }
  }

  /** A string replace with a one-character pattern: only the first occurrence changes. */
  function ReplaceFirst(s: string, c: char, d: char): (r: string)
    ensures |r| == |s|
  {
    if |s| == 0 then s
    else if s[0] == c then [d] + s[1..]
    else [s[0]] + ReplaceFirst(s[1..], c, d)
  }

  /** Without a `c` the text is returned unchanged. */
  lemma {:induction false} ReplaceFirstWithout(s: string, c: char, d: char)
    requires c !in s
    ensures ReplaceFirst(s, c, d) == s
  {
    if |s| > 0 {
      assert c !in s[1..] by {
        assert forall k :: 0 <= k < |s| - 1 ==> s[1..][k] == s[k + 1];
      }
      ReplaceFirstWithout(s[1..], c, d);
    }
  }

  /** Splitting at the first `c`: that one `c` becomes `d`, the text before and after is kept. */
  lemma {:induction false} ReplaceFirstAt(p: string, q: string, c: char, d: char)
    requires c !in p
    ensures ReplaceFirst(p + [c] + q, c, d) == p + [d] + q
  {
    if |p| > 0 {
      assert (p + [c] + q)[1..] == p[1..] + [c] + q;
      ReplaceFirstAt(p[1..], q, c, d);
      assert p + [d] + q == [p[0]] + (p[1..] + [d] + q);
    }
  }

  /** Every occurrence of `c` replaced by `d`. */
  function ReplaceAll(s: string, c: char, d: char): (r: string)
    ensures |r| == |s|
    ensures forall i :: 0 <= i < |s| ==> r[i] == if s[i] == c then d else s[i]
  {
    seq(|s|, i requires 0 <= i < |s| => if s[i] == c then d else s[i])
  }

  /** Without a `c` replacing every occurrence changes nothing either. */
  lemma ReplaceAllWithout(s: string, c: char, d: char)
    requires c !in s
    ensures ReplaceAll(s, c, d) == s
  {
    assert forall i :: 0 <= i < |s| ==> ReplaceAll(s, c, d)[i] == s[i];
  }

  /** The status column as the page writes it: a replace of underscore by space, which changes only the first one. */
  function StatusDisplayAsWritten(status: string): (r: string)
    ensures |r| == |status|
  {
    ReplaceFirst(status, '_', ' ')
  }

  /** The status column meant: every underscore shown as a space. */
  function StatusDisplay(status: string): (r: string)
    ensures '_' !in r
    ensures |r| == |status|
  {
    ReplaceAll(status, '_', ' ')
  }

  /** The page as written shows "out for_delivery", an underscore left in. */
  lemma StatusDisplayAsWrittenKeepsUnderscore()
    ensures StatusDisplayAsWritten("out_for_delivery") == "out for_delivery"
    ensures '_' in StatusDisplayAsWritten("out_for_delivery")
  {
    ReplaceFirstAt("out", "for_delivery", '_', ' ');
    assert "out" + ['_'] + "for_delivery" == "out_for_delivery";
    assert "out" + [' '] + "for_delivery" == "out for_delivery";
    assert "out for_delivery"[7] == '_';
  }

  /** The intended display differs from the written one on exactly the one status with two underscores. */
  lemma StatusDisplayDiffers(s: OrderStatus)
    ensures StatusDisplay(StatusName(s)) == StatusDisplayAsWritten(StatusName(s)) <==> s != OutForDelivery
  {
    if s == OutForDelivery {
      StatusDisplayAsWrittenKeepsUnderscore();
    } else {
      var t := StatusName(s);
      NameWithoutUnderscore(s);
      ReplaceFirstWithout(t, '_', ' ');
      ReplaceAllWithout(t, '_', ' ');
    }
  }

  /** Only "out_for_delivery" among the status names has an underscore at all. */
  lemma NameWithoutUnderscore(s: OrderStatus)
    requires s != OutForDelivery
    ensures '_' !in StatusName(s)
  {
    match s
    case Pending => assert StatusName(s) == "pending";
    case Preparing => assert StatusName(s) == "preparing";
    case Ready => assert StatusName(s) == "ready";
    case Delivered => assert StatusName(s) == "delivered";
    case Cancelled => assert StatusName(s) == "cancelled";
  }

  /** The customer column: the first eight characters of the user id, then "...". */
  function CustomerColumn(userId: string): (r: string)
    ensures |r| == (if |userId| < 8 then |userId| else 8) + 3
    ensures r[..|r| - 3] <= userId && r[|r| - 3..] == "..."
  {
    (if |userId| < 8 then userId else userId[..8]) + "..."
  }

  /** One row of the orders table. */
  datatype Row = Row(id: int, customer: string, color: Option<string>, status: string)

  /** A row as the page renders it, with the status text as written. */
  function RowOf(order: Order): (r: Row)
    ensures r.id == order.id
    ensures r.color.Some? <==> ParseStatus(order.status).Some?
    ensures |r.customer| == (if |order.userId| < 8 then |order.userId| else 8) + 3
    ensures r.customer[..|r.customer| - 3] <= order.userId && r.customer[|r.customer| - 3..] == "..."
    ensures |r.status| == |order.status|
  {
    Row(order.id, CustomerColumn(order.userId), AdminColor(order.status), StatusDisplayAsWritten(order.status))
  }

  /** The row meant: the same, with every underscore of the status shown as a space. */
  function RowIntended(order: Order): (r: Row)
    ensures r.id == order.id
    ensures '_' !in r.status && |r.status| == |order.status|
  {
    Row(order.id, CustomerColumn(order.userId), AdminColor(order.status), StatusDisplay(order.status))
  }

  /** The rendered and the meant row agree except for the status text of an order out for delivery. */
  lemma RowDiffersOnlyOutForDelivery(order: Order, s: OrderStatus)
    requires order.status == StatusName(s)
    ensures RowOf(order).(status := "") == RowIntended(order).(status := "")
    ensures RowOf(order) == RowIntended(order) <==> s != OutForDelivery
  {
    StatusDisplayDiffers(s);
  }

  /** The values of the status selector, in their order on the page. */
  const SelectorValues: seq<string> :=
    ["pending", "preparing", "ready", "out_for_delivery", "delivered", "cancelled"]

  /** A status change request: the order id and the chosen status. */
  datatype StatusUpdate = StatusUpdate(orderId: int, status: string)

  /** `handleStatusChange`: the chosen value goes out as it is, whatever the order's current status. */
  function StatusChange(order: Order, value: string): (u: StatusUpdate)
    ensures u.orderId == order.id && u.status == value
  {
    StatusUpdate(order.id, value)
  }

  /** The selector offers each of the six statuses exactly once and nothing else. */
  lemma SelectorOffersEveryStatus()
    ensures |SelectorValues| == 6
    ensures forall s :: StatusName(s) in SelectorValues
    ensures forall i :: 0 <= i < |SelectorValues| ==> ParseStatus(SelectorValues[i]).Some?
    ensures forall i, j :: 0 <= i < j < |SelectorValues| ==> SelectorValues[i] != SelectorValues[j]
  {
  }

  /** Any status may follow any other: the request does not depend on the current status. */
  lemma NoTransitionRestriction(order: Order, current: string, value: string)
    ensures StatusChange(order.(status := current), value) == StatusChange(order, value)
  {
  }
}

=== FILE: cart.dfy ===
/**
 * The cart context: a sequence of lines with add-or-merge, remove, set
 * quantity, clear and the two totals. Lines are matched by a key function;
 * the cart passes `CartItemKey` (the product id and the sorted `name:choice` pairs),
 * the way the source passes `getCartItemKey` into `findIndex`, `filter` and
 * `map`. Every property below holds for any key function.
 */
module Cart {
  import opened Types
  import opened CartKey

  type Lines = seq<CartItem>

  /** A way of keying lines by product id and chosen options, as `getCartItemKey` does. */
  type KeyFn = (int, seq<SelectedOption>) -> string

  /** The key of one line under `key`. */
  function KeyOf(key: KeyFn, item: CartItem): string {
    key(item.product.id, item.selectedOptions)
  }

  /** The option prices of a line added up from zero, left to right. */
  function OptionsPrice(opts: seq<SelectedOption>): real {
    if |opts| == 0 then 0.0
    else OptionsPrice(opts[..|opts| - 1]) + opts[|opts| - 1].price
  }

  /** The price of one unit of a line: the product's price plus its option prices. */
  function UnitPrice(product: Product, opts: seq<SelectedOption>): real {
    product.price + OptionsPrice(opts)
  }

  /** The unit price times the quantity, in exact arithmetic. */
  function LineSubtotal(product: Product, opts: seq<SelectedOption>, quantity: int): real {
    UnitPrice(product, opts) * quantity as real
  }

  /** No two lines share a key. */
  predicate UniqueKeys(key: KeyFn, lines: Lines) {
    forall i, j :: 0 <= i < j < |lines| ==> KeyOf(key, lines[i]) != KeyOf(key, lines[j])
  }

  /** A line's subtotal is its unit price times its quantity. */
  predicate Consistent(item: CartItem) {
    item.subtotal == LineSubtotal(item.product, item.selectedOptions, item.quantity)
  }

  function KeySet(key: KeyFn, lines: Lines): set<string> {
    set i | 0 <= i < |lines| :: KeyOf(key, lines[i])
  }

  /** `findIndex` on the key: the first line with key `k`, or -1. */
  function KeyIndex(key: KeyFn, lines: Lines, k: string): (i: int)
    ensures -1 <= i < |lines|
    ensures 0 <= i ==> KeyOf(key, lines[i]) == k
    ensures forall j :: 0 <= j < |lines| && (i < 0 || j < i) ==> KeyOf(key, lines[j]) != k
  {
    if |lines| == 0 then -1
    else if KeyOf(key, lines[0]) == k then 0
    else
      var j := KeyIndex(key, lines[1..], k);
      if j < 0 then -1 else j + 1
  }

  /** `totalItems`: the sum of the quantities. */
  function TotalItems(lines: Lines): int {
    if |lines| == 0 then 0
    else TotalItems(lines[..|lines| - 1]) + lines[|lines| - 1].quantity
  }

  /** `totalPrice`: the sum of the subtotals. */
  function TotalPrice(lines: Lines): real {
    if |lines| == 0 then 0.0
    else TotalPrice(lines[..|lines| - 1]) + lines[|lines| - 1].subtotal
  }

  /** The line `addItem` would append for these arguments. */
  function NewLine(product: Product, quantity: int, opts: seq<SelectedOption>): CartItem {
    CartItem(product, quantity, opts, LineSubtotal(product, opts, quantity))
  }

  /** `addItem`: merge into the first line with the same key, or append a new line. */
  function AddItem(key: KeyFn, lines: Lines, product: Product, quantity: int, opts: seq<SelectedOption>): (r: Lines)
    ensures KeySet(key, r) == KeySet(key, lines) + {KeyOf(key, NewLine(product, quantity, opts))}
    ensures |r| == if KeyOf(key, NewLine(product, quantity, opts)) in KeySet(key, lines) then |lines| else |lines| + 1
  {
    var line := NewLine(product, quantity, opts);
    var itemKey := KeyOf(key, line);
    var existing := KeyIndex(key, lines, itemKey);
    if existing >= 0 then
      var prev := lines[existing];
      var r := lines[existing := prev.(quantity := prev.quantity + quantity, subtotal := prev.subtotal + line.subtotal)];
      assert KeySet(key, r) == KeySet(key, lines) by {
        assert KeyOf(key, r[existing]) == KeyOf(key, prev);
        forall k | k in KeySet(key, lines) ensures k in KeySet(key, r) {
          var i :| 0 <= i < |lines| && KeyOf(key, lines[i]) == k;
          assert KeyOf(key, r[i]) == k;
        }
      }
      r
    else
      var r := lines + [line];
      assert KeySet(key, r) == KeySet(key, lines) + {itemKey} by {
        assert KeyOf(key, r[|lines|]) == itemKey;
        forall k | k in KeySet(key, lines) ensures k in KeySet(key, r) {
          var i :| 0 <= i < |lines| && KeyOf(key, lines[i]) == k;
          assert KeyOf(key, r[i]) == k;
        }
      }
      r
  }

  /** `removeItem`: keep the lines whose key differs from `k`; the product id is not consulted. */
  function RemoveItem(key: KeyFn, lines: Lines, productId: int, k: string): (r: Lines)
    ensures |r| <= |lines|
    ensures forall i :: 0 <= i < |r| ==> KeyOf(key, r[i]) != k
  {
    if |lines| == 0 then []
    else
      var rest := RemoveItem(key, lines[1..], productId, k);
      if KeyOf(key, lines[0]) != k then [lines[0]] + rest else rest
  }

  /** Every line with the key `k` given a new quantity and its recomputed subtotal. */
  function SetQuantity(key: KeyFn, lines: Lines, k: string, quantity: int): (r: Lines)
    ensures |r| == |lines|
    ensures forall i :: 0 <= i < |lines| && KeyOf(key, lines[i]) != k ==> r[i] == lines[i]
    ensures forall i :: 0 <= i < |lines| && KeyOf(key, lines[i]) == k ==>
      && r[i].product == lines[i].product
      && r[i].selectedOptions == lines[i].selectedOptions
      && r[i].quantity == quantity
      && Consistent(r[i])
  {
    seq(|lines|, i requires 0 <= i < |lines| =>
      var item := lines[i];
      if KeyOf(key, item) == k then
        item.(quantity := quantity, subtotal := LineSubtotal(item.product, item.selectedOptions, quantity))
      else item)
  }

  /** `updateQuantity`: a quantity of zero or less removes the line instead. */
  function UpdateQuantity(key: KeyFn, lines: Lines, productId: int, k: string, quantity: int): (r: Lines)
    ensures quantity <= 0 ==> forall i :: 0 <= i < |r| ==> KeyOf(key, r[i]) != k
    ensures quantity > 0 ==> |r| == |lines| && forall i :: 0 <= i < |r| ==> KeyOf(key, r[i]) == KeyOf(key, lines[i])
  {
    if quantity <= 0 then RemoveItem(key, lines, productId, k)
    else SetQuantity(key, lines, k, quantity)
  }

  /** `clearCart`. */
  function ClearCart(): (r: Lines)
    ensures |r| == 0 && TotalItems(r) == 0 && TotalPrice(r) == 0.0
  {
    []
  }

  // Bookkeeping of the totals

  lemma {:induction false} TotalsOfUpdate(lines: Lines, i: int, x: CartItem)
    requires 0 <= i < |lines|
    ensures TotalItems(lines[i := x]) == TotalItems(lines) - lines[i].quantity + x.quantity
    ensures TotalPrice(lines[i := x]) == TotalPrice(lines) - lines[i].subtotal + x.subtotal
  {
    var n := |lines|;
    var u := lines[i := x];
    if i == n - 1 {
      assert u[..n - 1] == lines[..n - 1];
    } else {
      assert u[..n - 1] == lines[..n - 1][i := x];
      TotalsOfUpdate(lines[..n - 1], i, x);
    }
  }

  lemma {:induction false} TotalsOfRemoval(lines: Lines, i: int)
    requires 0 <= i < |lines|
    ensures TotalItems(lines[..i] + lines[i + 1..]) == TotalItems(lines) - lines[i].quantity
    ensures TotalPrice(lines[..i] + lines[i + 1..]) == TotalPrice(lines) - lines[i].subtotal
  {
    var n := |lines|;
    var u := lines[..i] + lines[i + 1..];
    if i == n - 1 {
      assert u == lines[..n - 1];
    } else {
      var init := lines[..n - 1];
      assert u[..|u| - 1] == init[..i] + init[i + 1..];
      assert u[|u| - 1] == lines[n - 1];
      TotalsOfRemoval(init, i);
    }
  }

  // addItem

  /** A new key appends exactly one line at the end and leaves the others as they were. */
  lemma AddNewKeyAppends(key: KeyFn, lines: Lines, product: Product, quantity: int, opts: seq<SelectedOption>)
    requires KeyOf(key, NewLine(product, quantity, opts)) !in KeySet(key, lines)
    ensures AddItem(key, lines, product, quantity, opts) == lines + [NewLine(product, quantity, opts)]
  {
    assert forall j :: 0 <= j < |lines| ==> KeyOf(key, lines[j]) in KeySet(key, lines);
  }

  /**
   * An existing key keeps the length and adds the quantity and the subtotal to
   * that one line; every other line is untouched.
   */
  lemma AddExistingKeyMerges(key: KeyFn, lines: Lines, product: Product, quantity: int, opts: seq<SelectedOption>, i: int)
    requires UniqueKeys(key, lines)
    requires 0 <= i < |lines| && KeyOf(key, lines[i]) == KeyOf(key, NewLine(product, quantity, opts))
    ensures var r := AddItem(key, lines, product, quantity, opts);
      && |r| == |lines|
      && r[i].product == lines[i].product
      && r[i].selectedOptions == lines[i].selectedOptions
      && r[i].quantity == lines[i].quantity + quantity
      && r[i].subtotal == lines[i].subtotal + LineSubtotal(product, opts, quantity)
      && forall j :: 0 <= j < |lines| && j != i ==> r[j] == lines[j]
  {
    assert KeyIndex(key, lines, KeyOf(key, NewLine(product, quantity, opts))) == i;
  }

  /** `totalItems` rises by `quantity` and `totalPrice` by the computed subtotal. */
  lemma AddItemTotals(key: KeyFn, lines: Lines, product: Product, quantity: int, opts: seq<SelectedOption>)
    ensures TotalItems(AddItem(key, lines, product, quantity, opts)) == TotalItems(lines) + quantity
    ensures TotalPrice(AddItem(key, lines, product, quantity, opts))
      == TotalPrice(lines) + LineSubtotal(product, opts, quantity)
  {
    var line := NewLine(product, quantity, opts);
    var i := KeyIndex(key, lines, KeyOf(key, line));
    var r := AddItem(key, lines, product, quantity, opts);
    if i >= 0 {
      var prev := lines[i];
      TotalsOfUpdate(lines, i, prev.(quantity := prev.quantity + quantity, subtotal := prev.subtotal + line.subtotal));
    } else {
      assert r[..|lines|] == lines;
    }
  }

  /**
   * Merging keeps a consistent line consistent when its unit price is the one
   * being added, and the merged subtotal is the one `updateQuantity` would
   * recompute for the new quantity.
   */
  lemma MergeKeepsConsistent(key: KeyFn, lines: Lines, product: Product, quantity: int, opts: seq<SelectedOption>, i: int)
    requires UniqueKeys(key, lines)
    requires 0 <= i < |lines| && KeyOf(key, lines[i]) == KeyOf(key, NewLine(product, quantity, opts))
    requires Consistent(lines[i])
    requires lines[i].quantity + quantity > 0
    requires UnitPrice(lines[i].product, lines[i].selectedOptions) == UnitPrice(product, opts)
    ensures Consistent(AddItem(key, lines, product, quantity, opts)[i])
    ensures AddItem(key, lines, product, quantity, opts)[i].subtotal
      == UpdateQuantity(key, lines, product.id, KeyOf(key, lines[i]), lines[i].quantity + quantity)[i].subtotal
  {
    AddExistingKeyMerges(key, lines, product, quantity, opts, i);
    var u := UnitPrice(product, opts);
    var a, b := lines[i].quantity as real, quantity as real;
    assert u * a + u * b == u * (a + b);
  }

  /** `addItem` keeps the keys pairwise distinct. */
  lemma AddKeepsKeysUnique(key: KeyFn, lines: Lines, product: Product, quantity: int, opts: seq<SelectedOption>)
    requires UniqueKeys(key, lines)
    ensures UniqueKeys(key, AddItem(key, lines, product, quantity, opts))
  {
    var k := KeyOf(key, NewLine(product, quantity, opts));
    var r := AddItem(key, lines, product, quantity, opts);
    if k in KeySet(key, lines) {
      var i :| 0 <= i < |lines| && KeyOf(key, lines[i]) == k;
      AddExistingKeyMerges(key, lines, product, quantity, opts, i);
      assert forall j :: 0 <= j < |r| ==> KeyOf(key, r[j]) == KeyOf(key, lines[j]);
    } else {
      AddNewKeyAppends(key, lines, product, quantity, opts);
      assert forall j :: 0 <= j < |lines| ==> KeyOf(key, lines[j]) in KeySet(key, lines);
    }
  }

  // removeItem

  /** Removing a key no line has changes nothing. */
  lemma {:induction false} RemoveAbsentIsIdentity(key: KeyFn, lines: Lines, productId: int, k: string)
    requires forall j :: 0 <= j < |lines| ==> KeyOf(key, lines[j]) != k
    ensures RemoveItem(key, lines, productId, k) == lines
  {
    if |lines| > 0 {
      assert KeyOf(key, lines[0]) != k;
      RemoveAbsentIsIdentity(key, lines[1..], productId, k);
      assert lines == [lines[0]] + lines[1..];
    }
  }

  /** With distinct keys, removing a present key drops exactly that one line. */
  lemma {:induction false} RemoveDropsTheLine(key: KeyFn, lines: Lines, productId: int, i: int)
    requires UniqueKeys(key, lines)
    requires 0 <= i < |lines|
    ensures RemoveItem(key, lines, productId, KeyOf(key, lines[i])) == lines[..i] + lines[i + 1..]
  {
    var k := KeyOf(key, lines[i]);
    var tail := lines[1..];
    if i == 0 {
      forall j | 0 <= j < |tail| ensures KeyOf(key, tail[j]) != k {
        assert tail[j] == lines[j + 1];
      }
      RemoveAbsentIsIdentity(key, tail, productId, k);
      assert lines[..0] + lines[1..] == tail;
    } else {
      assert KeyOf(key, lines[0]) != k;
      assert tail[i - 1] == lines[i];
      assert UniqueKeys(key, tail) by {
        forall a, b | 0 <= a < b < |tail| ensures KeyOf(key, tail[a]) != KeyOf(key, tail[b]) {
          assert tail[a] == lines[a + 1] && tail[b] == lines[b + 1];
        }
      }
      RemoveDropsTheLine(key, tail, productId, i - 1);
      assert [lines[0]] + (tail[..i - 1] + tail[i..]) == lines[..i] + lines[i + 1..];
    }
  }

  /** Removal keeps the remaining lines in their order: it distributes over concatenation. */
  lemma {:induction false} RemoveKeepsOrder(key: KeyFn, a: Lines, b: Lines, productId: int, k: string)
    ensures RemoveItem(key, a + b, productId, k)
      == RemoveItem(key, a, productId, k) + RemoveItem(key, b, productId, k)
  {
    if |a| == 0 {
      assert a + b == b;
    } else {
      assert (a + b)[1..] == a[1..] + b;
      RemoveKeepsOrder(key, a[1..], b, productId, k);
    }
  }

  /** A line survives removal exactly when its key differs. */
  lemma {:induction false} RemoveMembership(key: KeyFn, lines: Lines, productId: int, k: string, x: CartItem)
    ensures x in RemoveItem(key, lines, productId, k) <==> x in lines && KeyOf(key, x) != k
  {
    if |lines| > 0 {
      RemoveMembership(key, lines[1..], productId, k, x);
      assert lines == [lines[0]] + lines[1..];
    }
  }

  /** The `productId` argument of `removeItem` and `updateQuantity` is never consulted. */
  lemma {:induction false} ProductIdIgnored(key: KeyFn, lines: Lines, p: int, q: int, k: string, quantity: int)
    ensures RemoveItem(key, lines, p, k) == RemoveItem(key, lines, q, k)
    ensures UpdateQuantity(key, lines, p, k, quantity) == UpdateQuantity(key, lines, q, k, quantity)
  {
    if |lines| > 0 {
      ProductIdIgnored(key, lines[1..], p, q, k, quantity);
    }
  }

  /** `removeItem` keeps the keys distinct and lowers the totals by the removed line. */
  lemma RemoveKeepsKeysUnique(key: KeyFn, lines: Lines, productId: int, i: int)
    requires UniqueKeys(key, lines)
    requires 0 <= i < |lines|
    ensures var r := RemoveItem(key, lines, productId, KeyOf(key, lines[i]));
      && UniqueKeys(key, r)
      && TotalItems(r) == TotalItems(lines) - lines[i].quantity
      && TotalPrice(r) == TotalPrice(lines) - lines[i].subtotal
  {
    RemoveDropsTheLine(key, lines, productId, i);
    TotalsOfRemoval(lines, i);
    var r := lines[..i] + lines[i + 1..];
    forall a, b | 0 <= a < b < |r| ensures KeyOf(key, r[a]) != KeyOf(key, r[b]) {
      var a', b' := if a < i then a else a + 1, if b < i then b else b + 1;
      assert r[a] == lines[a'] && r[b] == lines[b'];
    }
  }

  // updateQuantity

  /** A quantity of zero or less is exactly `removeItem`. */
  lemma UpdateNonPositiveRemoves(key: KeyFn, lines: Lines, productId: int, k: string, quantity: int)
    requires quantity <= 0
    ensures UpdateQuantity(key, lines, productId, k, quantity) == RemoveItem(key, lines, productId, k)
  {
  }

  /**
   * With distinct keys, a positive quantity changes the matched line only: the
   * keys stay distinct and the totals move by that line's difference.
   */
  lemma UpdatePositiveTotals(key: KeyFn, lines: Lines, productId: int, i: int, quantity: int)
    requires UniqueKeys(key, lines)
    requires 0 <= i < |lines| && quantity > 0
    ensures var r := UpdateQuantity(key, lines, productId, KeyOf(key, lines[i]), quantity);
      && UniqueKeys(key, r)
      && r[i].quantity == quantity && Consistent(r[i])
      && (forall j :: 0 <= j < |lines| && j != i ==> r[j] == lines[j])
      && TotalItems(r) == TotalItems(lines) - lines[i].quantity + quantity
      && TotalPrice(r) == TotalPrice(lines) - lines[i].subtotal
                          + LineSubtotal(lines[i].product, lines[i].selectedOptions, quantity)
  {
    var r := UpdateQuantity(key, lines, productId, KeyOf(key, lines[i]), quantity);
    assert r == lines[i := r[i]];
    TotalsOfUpdate(lines, i, r[i]);
  }

  /** `updateQuantity` keeps the keys pairwise distinct for every quantity. */
  lemma UpdateKeepsKeysUnique(key: KeyFn, lines: Lines, productId: int, k: string, quantity: int)
    requires UniqueKeys(key, lines)
    ensures UniqueKeys(key, UpdateQuantity(key, lines, productId, k, quantity))
  {
    if quantity <= 0 {
      var r := RemoveItem(key, lines, productId, k);
      if i :| 0 <= i < |lines| && KeyOf(key, lines[i]) == k {
        RemoveKeepsKeysUnique(key, lines, productId, i);
      } else {
        RemoveAbsentIsIdentity(key, lines, productId, k);
      }
    }
  }
}

=== FILE: cart_key.dfy ===
/**
 * The key that identifies a cart line: the product id, a dash, and the
 * sorted `name:choice` pairs of the selected options joined with `|`.
 */
module CartKey {
  import opened Types
  import opened Decimal
  import opened Lex

  /** The `name:choice` pair of one selected option. */
  function OptionToken(o: SelectedOption): string {
    o.name + ":" + o.choice
  }

  /** `f` applied to every element, in order. */
  function Map<A, B>(f: A -> B, s: seq<A>): (r: seq<B>)
    ensures |r| == |s| && forall i :: 0 <= i < |s| ==> r[i] == f(s[i])
  {
    if |s| == 0 then [] else [f(s[0])] + Map(f, s[1..])
  }

  /** The `name:choice` token of every selected option, in order. */
  function Tokens(opts: seq<SelectedOption>): seq<string> {
    Map(OptionToken, opts)
  }

  /** `getCartItemKey(productId, selectedOptions)` of the cart context. */
  function CartItemKey(productId: int, opts: seq<SelectedOption>): string {
    IntToString(productId) + "-" + Join(Sort(Tokens(opts)), "|")
  }

  /** `getCartItemKey(item)` of the cart line component, which reads both parts from the line. */
  function LineKey(item: CartItem): (k: string)
    ensures k == CartItemKey(item.product.id, item.selectedOptions)
  {
    var optionsStr := Join(Sort(Tokens(item.selectedOptions)), "|");
    IntToString(item.product.id) + "-" + optionsStr
  }

  /** With equal multisets, removing the partner of `a[0]` from `b` leaves the multiset of `a[1..]`. */
  lemma PermutationTail<T>(a: seq<T>, b: seq<T>, j: int)
    requires multiset(a) == multiset(b) && |a| > 0
    requires 0 <= j < |b| && b[j] == a[0]
    ensures multiset(a[1..]) == multiset(b[..j] + b[j + 1..])
  {
    assert b == b[..j] + [b[j]] + b[j + 1..];
    assert multiset(b) == multiset(b[..j]) + multiset{b[j]} + multiset(b[j + 1..]);
    assert a == [a[0]] + a[1..];
    assert multiset(a[1..]) == multiset(a) - multiset{a[0]};
  }

  /** Taking out the element at `j` takes one copy of it out of the multiset. */
  lemma MultisetRemoveAt<T>(s: seq<T>, j: int)
    requires 0 <= j < |s|
    ensures multiset(s) == multiset(s[..j] + s[j + 1..]) + multiset{s[j]}
  {
    assert s == s[..j] + [s[j]] + s[j + 1..];
  }

  /** Mapping commutes with taking out the element at `j`. */
  lemma MapDropAt<A, B>(f: A -> B, b: seq<A>, j: int)
    requires 0 <= j < |b|
    ensures Map(f, b[..j] + b[j + 1..]) == Map(f, b)[..j] + Map(f, b)[j + 1..]
  {
    var r, m := b[..j] + b[j + 1..], Map(f, b);
    forall i | 0 <= i < |r| ensures Map(f, r)[i] == (m[..j] + m[j + 1..])[i] {
      if i < j {
        assert r[i] == b[i];
      } else {
        assert r[i] == b[i + 1];
      }
    }
  }

  /** Taking out the element at `j` takes one copy of its image out of the images. */
  lemma MapRemoveAt<A, B>(f: A -> B, b: seq<A>, j: int)
    requires 0 <= j < |b|
    ensures multiset(Map(f, b)) == multiset(Map(f, b[..j] + b[j + 1..])) + multiset{f(b[j])}
  {
    MapDropAt(f, b, j);
    MultisetRemoveAt(Map(f, b), j);
  }

  /** Lists with the same elements have the same images, counted with multiplicity. */
  lemma {:induction false} MapRespectsPermutation<A, B>(f: A -> B, a: seq<A>, b: seq<A>)
    requires multiset(a) == multiset(b)
    ensures multiset(Map(f, a)) == multiset(Map(f, b))
  {
    if |a| == 0 {
      assert |multiset(b)| == 0;
    } else {
      assert a[0] in multiset(b);
      var j :| 0 <= j < |b| && b[j] == a[0];
      PermutationTail(a, b, j);
      MapRespectsPermutation(f, a[1..], b[..j] + b[j + 1..]);
      MapRemoveAt(f, b, j);
    }
  }

  /** The key does not depend on the order in which the options were selected. */
  lemma KeyIgnoresOptionOrder(productId: int, a: seq<SelectedOption>, b: seq<SelectedOption>)
    requires multiset(a) == multiset(b)
    ensures CartItemKey(productId, a) == CartItemKey(productId, b)
  {
    MapRespectsPermutation(OptionToken, a, b);
    SortIgnoresOrder(Tokens(a), Tokens(b));
  }

  /** A digit run ended by a dash is determined by the text it starts. */
  lemma DigitsBeforeDash(sp: string, sq: string, x: string, y: string)
    requires AllDigits(sp) && AllDigits(sq)
    requires sp + "-" + x == sq + "-" + y
    ensures sp == sq
  {
    var k := sp + "-" + x;
    assert k[|sp|] == '-';
    assert k[|sq|] == '-';
    if |sp| != |sq| {
      assert false;
    }
    assert sp == k[..|sp|] == sq;
  }

  /** Lines of different products never share a key (product ids are not negative). */
  lemma KeySeparatesProducts(p: int, q: int, a: seq<SelectedOption>, b: seq<SelectedOption>)
    requires p >= 0 && q >= 0
    requires CartItemKey(p, a) == CartItemKey(q, b)
    ensures p == q
  {
    NatToStringCanonical(p);
    NatToStringCanonical(q);
    DigitsBeforeDash(NatToString(p), NatToString(q), Join(Sort(Tokens(a)), "|"), Join(Sort(Tokens(b)), "|"));
    NatToStringInjective(p, q);
  }
}

=== FILE: cart_line.dfy ===
/**
 * The minus, plus and trash buttons of one cart line
 * (`client/src/components/CartItem.tsx`). Each keys the line with the
 * component's own copy of the key function and calls the cart context.
 */
module CartLine {
  import opened Types
  import opened CartKey
  import opened Cart

  /** Minus: the line's quantity set to one less, through `updateQuantity`. */
  function Minus(lines: Lines, item: CartItem): Lines {
    UpdateQuantity(CartItemKey, lines, item.product.id, LineKey(item), item.quantity - 1)
  }

  /** Plus: the line's quantity set to one more, through `updateQuantity`. */
  function Plus(lines: Lines, item: CartItem): Lines {
    UpdateQuantity(CartItemKey, lines, item.product.id, LineKey(item), item.quantity + 1)
  }

  /** Trash: the line removed by its key, through `removeItem`. */
  function Trash(lines: Lines, item: CartItem): Lines {
    RemoveItem(CartItemKey, lines, item.product.id, LineKey(item))
  }

  /** Minus on a line of quantity one removes exactly that line. */
  lemma MinusAtOneRemoves(lines: Lines, i: int)
    requires UniqueKeys(CartItemKey, lines)
    requires 0 <= i < |lines| && lines[i].quantity == 1
    ensures Minus(lines, lines[i]) == lines[..i] + lines[i + 1..]
  {
    RemoveDropsTheLine(CartItemKey, lines, lines[i].product.id, i);
  }

  /**
   * The line after `UpdateQuantity` to a positive quantity: that line gets the
   * quantity and the recomputed subtotal, every other line is left as it was.
   */
  lemma SetOnlyTheLine(lines: Lines, i: int, quantity: int)
    requires UniqueKeys(CartItemKey, lines)
    requires 0 <= i < |lines| && quantity > 0
    ensures var r := UpdateQuantity(CartItemKey, lines, lines[i].product.id, LineKey(lines[i]), quantity);
      && |r| == |lines|
      && r[i] == lines[i].(quantity := quantity,
                           subtotal := LineSubtotal(lines[i].product, lines[i].selectedOptions, quantity))
      && forall j :: 0 <= j < |lines| && j != i ==> r[j] == lines[j]
  {
    var r := UpdateQuantity(CartItemKey, lines, lines[i].product.id, LineKey(lines[i]), quantity);
    forall j | 0 <= j < |lines| && j != i ensures r[j] == lines[j] {
      assert KeyOf(CartItemKey, lines[j]) != KeyOf(CartItemKey, lines[i]);
    }
  }

  /** Minus above one decrements that line and recomputes its subtotal only. */
  lemma MinusAboveOneDecrements(lines: Lines, i: int)
    requires UniqueKeys(CartItemKey, lines)
    requires 0 <= i < |lines| && lines[i].quantity > 1
    ensures var r := Minus(lines, lines[i]);
      && |r| == |lines|
      && r[i].quantity == lines[i].quantity - 1
      && r[i].product == lines[i].product && r[i].selectedOptions == lines[i].selectedOptions
      && Consistent(r[i])
      && forall j :: 0 <= j < |lines| && j != i ==> r[j] == lines[j]
  {
    SetOnlyTheLine(lines, i, lines[i].quantity - 1);
  }

  /**
   * Plus raises that line's quantity by exactly one and leaves the others; a
   * line whose quantity is below zero would instead be removed, since the
   * context removes at zero or less.
   */
  lemma PlusIncrements(lines: Lines, i: int)
    requires UniqueKeys(CartItemKey, lines)
    requires 0 <= i < |lines|
    ensures var r := Plus(lines, lines[i]);
      && (lines[i].quantity >= 0 ==>
            && |r| == |lines|
            && r[i].quantity == lines[i].quantity + 1
            && Consistent(r[i])
            && forall j :: 0 <= j < |lines| && j != i ==> r[j] == lines[j])
      && (lines[i].quantity < 0 ==> r == lines[..i] + lines[i + 1..])
  {
    if lines[i].quantity >= 0 {
      SetOnlyTheLine(lines, i, lines[i].quantity + 1);
    } else {
      RemoveDropsTheLine(CartItemKey, lines, lines[i].product.id, i);
    }
  }

  /** Trash removes exactly the line it sits on. */
  lemma TrashRemovesExactly(lines: Lines, i: int)
    requires UniqueKeys(CartItemKey, lines)
    requires 0 <= i < |lines|
    ensures Trash(lines, lines[i]) == lines[..i] + lines[i + 1..]
  {
    RemoveDropsTheLine(CartItemKey, lines, lines[i].product.id, i);
  }
}

=== FILE: checkout.dfy ===
/**
 * The checkout page (`client/src/pages/CheckoutPage.tsx`): address check,
 * the order payload, what a submit does with the outcome of the create call,
 * and the redirect for an empty cart. The create call itself is a parameter.
 */
module Checkout {
  import opened Wrappers
  import opened Types
  import opened Decimal
  import opened Cart

  /** The characters `String.prototype.trim` removes: white space and line terminators. */
  predicate IsTrimSpace(c: char) {
    var n := c as int;
    n == 0x09 || n == 0x0A || n == 0x0B || n == 0x0C || n == 0x0D || n == 0x20
    || n == 0xA0 || n == 0x1680 || (0x2000 <= n <= 0x200A) || n == 0x2028 || n == 0x2029
    || n == 0x202F || n == 0x205F || n == 0x3000 || n == 0xFEFF
  }

  /** Drops the leading white space. */
  function TrimStart(s: string): (r: string)
    ensures |r| <= |s| && r == s[|s| - |r|..]
    ensures forall i :: 0 <= i < |s| - |r| ==> IsTrimSpace(s[i])
    ensures |r| > 0 ==> !IsTrimSpace(r[0])
  {
    if |s| > 0 && IsTrimSpace(s[0]) then TrimStart(s[1..]) else s
  }

  /** Drops the trailing white space. */
  function TrimEnd(s: string): (r: string)
    ensures |r| <= |s| && r == s[..|r|]
    ensures forall i :: |r| <= i < |s| ==> IsTrimSpace(s[i])
    ensures |r| > 0 ==> !IsTrimSpace(r[|r| - 1])
  {
    if |s| > 0 && IsTrimSpace(s[|s| - 1]) then TrimEnd(s[..|s| - 1]) else s
  }

  /** `trim()`: both ends stripped; what is left starts and ends with a character that is kept. */
  function Trim(s: string): (r: string)
    ensures |r| <= |s|
    ensures |r| > 0 ==> !IsTrimSpace(r[0]) && !IsTrimSpace(r[|r| - 1])
  {
    TrimEnd(TrimStart(s))
  }

  /** The address counts as blank exactly when it is made only of white space. */
  lemma BlankIffAllSpace(s: string)
    ensures Trim(s) == "" <==> forall i :: 0 <= i < |s| ==> IsTrimSpace(s[i])
  {
  }

  /** One entry of the payload's `items`. */
  datatype PayloadItem = PayloadItem(productId: int, quantity: int, selectedOptions: seq<SelectedOption>, subtotal: real)

  /** The `orderData` sent to the create call. */
  datatype Payload = Payload(
    items: seq<PayloadItem>,
    total: real,
    deliveryAddress: string,
    deliveryLat: Option<string>,
    deliveryLng: Option<string>,
    notes: Option<string>)

  /** `orderData`: the address goes out as typed; a pin gives both coordinates as text; empty notes are left out. */
  function BuildPayload(lines: Lines, address: string, location: Option<Point>, notes: string): (p: Payload)
    ensures |p.items| == |lines|
    ensures forall i :: 0 <= i < |lines| ==>
      p.items[i] == PayloadItem(lines[i].product.id, lines[i].quantity, lines[i].selectedOptions, lines[i].subtotal)
    ensures p.total == TotalPrice(lines)
    ensures p.deliveryAddress == address
    ensures p.deliveryLat.None? <==> location.None?
    ensures p.deliveryLng.None? <==> location.None?
    ensures location.Some? ==> p.deliveryLat == Some(location.value.lat.text) && p.deliveryLng == Some(location.value.lng.text)
    ensures p.notes.None? <==> notes == ""
    ensures p.notes.Some? ==> p.notes.value == notes
  {
    Payload(
      seq(|lines|, i requires 0 <= i < |lines| =>
        PayloadItem(lines[i].product.id, lines[i].quantity, lines[i].selectedOptions, lines[i].subtotal)),
      TotalPrice(lines),
      address,
      if location.Some? then Some(location.value.lat.text) else None,
      if location.Some? then Some(location.value.lng.text) else None,
      if notes == "" then None else Some(notes))
  }

  /** The sum of the payload items' subtotals. */
  function ItemsTotal(items: seq<PayloadItem>): real {
    if |items| == 0 then 0.0 else ItemsTotal(items[..|items| - 1]) + items[|items| - 1].subtotal
  }

  /** The payload's total is the sum of its own items' subtotals, so the two agree. */
  lemma {:induction false} PayloadTotalIsItemSum(lines: Lines, address: string, location: Option<Point>, notes: string)
    ensures BuildPayload(lines, address, location, notes).total == ItemsTotal(BuildPayload(lines, address, location, notes).items)
    decreases |lines|
  {
    if |lines| > 0 {
      var n := |lines|;
      PayloadTotalIsItemSum(lines[..n - 1], address, location, notes);
      assert BuildPayload(lines, address, location, notes).items[..n - 1]
        == BuildPayload(lines[..n - 1], address, location, notes).items;
    }
  }

  /** The answer of the create call: the new order's id, or the thrown error's message. */
  datatype CreateResult = Created(orderId: int) | Failed(message: string)

  /** The page after a submit: the cart, the error line, where it navigated, and what it sent. */
  datatype SubmitOutcome = SubmitOutcome(lines: Lines, error: string, navigateTo: Option<string>, sent: Option<Payload>)

  /** The path of an order's page: `/orders/` followed by the id in decimal. */
  function OrderPath(id: int): (r: string)
    ensures |r| > 8 && r[..8] == "/orders/"
  {
    "/orders/" + IntToString(id)
  }

  /** `handleSubmit`, with `result` standing for what the create call answers. */
  function Submit(lines: Lines, address: string, location: Option<Point>, notes: string, result: CreateResult): (o: SubmitOutcome)
    ensures Trim(address) == "" ==>
      o == SubmitOutcome(lines, "Please enter a delivery address", None, None)
    ensures Trim(address) != "" ==> o.sent == Some(BuildPayload(lines, address, location, notes))
    ensures Trim(address) != "" && result.Created? ==>
      |o.lines| == 0 && o.error == "" && o.navigateTo == Some(OrderPath(result.orderId))
    ensures Trim(address) != "" && result.Failed? ==>
      o.lines == lines && o.navigateTo.None?
      && o.error == (if result.message == "" then "Failed to create order" else result.message)
  {
    if Trim(address) == "" then SubmitOutcome(lines, "Please enter a delivery address", None, None)
    else
      var payload := BuildPayload(lines, address, location, notes);
      match result
      case Created(id) => SubmitOutcome(ClearCart(), "", Some(OrderPath(id)), Some(payload))
      case Failed(m) => SubmitOutcome(lines, if m == "" then "Failed to create order" else m, None, Some(payload))
  }

  /** The effect on an empty cart: go back to the cart page. */
  function EmptyCartRedirect(lines: Lines): (r: Option<string>)
    ensures r.Some? <==> |lines| == 0
    ensures r.Some? ==> r.value == "/cart"
  {
    if |lines| == 0 then Some("/cart") else None
  }

  /** The cart is emptied only by a successful create. */
  lemma CartClearedOnlyOnSuccess(lines: Lines, address: string, location: Option<Point>, notes: string, result: CreateResult)
    requires |lines| > 0
    ensures |Submit(lines, address, location, notes, result).lines| == 0
      <==> Trim(address) != "" && result.Created?
  {
  }

  /** The path a successful submit navigates to names the new order, readable back as its id. */
  lemma OrderPathNamesOrder(id: int)
    requires id >= 0
    ensures var p := OrderPath(id);
      |p| > 8 && p[..8] == "/orders/" && AllDigits(p[8..]) && ParseDigits(p[8..]) == id
  {
    ParseNatToString(id);
    assert OrderPath(id)[8..] == NatToString(id);
  }
}

=== FILE: decimal.dfy ===
/**
 * Decimal text of integers, as JavaScript prints a safe integer wherever it
 * turns one into a string, and the inverse parse of a run of digits.
 */
module Decimal {

  predicate IsDigit(c: char) {
    '0' <= c <= '9'
  }

  predicate AllDigits(s: string) {
    forall i :: 0 <= i < |s| ==> IsDigit(s[i])
  }

  /** A digit string as JavaScript prints a number: non-empty, no leading zero. */
  predicate Canonical(s: string) {
    |s| >= 1 && AllDigits(s) && (s[0] == '0' ==> |s| == 1)
  }

  function DigitChar(d: nat): (c: char)
    requires d < 10
    ensures IsDigit(c)
  {
    (('0' as int) + d) as char
  }

  function DigitValue(c: char): (d: nat)
    requires IsDigit(c)
    ensures d < 10
    ensures DigitChar(d) == c
  {
    (c as int) - ('0' as int)
  }

  /** The decimal text of a natural number, most significant digit first. */
  function NatToString(n: nat): string {
    if n < 10 then [DigitChar(n)]
    else NatToString(n / 10) + [DigitChar(n % 10)]
  }

  /** The printed text is a canonical digit string. */
  lemma {:induction false} NatToStringCanonical(n: nat)
    ensures Canonical(NatToString(n))
    ensures n >= 1 ==> NatToString(n)[0] != '0'
  {
    if n >= 10 {
      NatToStringCanonical(n / 10);
      assert NatToString(n / 10)[0] == NatToString(n)[0];
    }
  }

  /** The decimal text of any integer: a minus sign in front of negative values. */
  function IntToString(i: int): string {
    if i < 0 then "-" + NatToString(-i) else NatToString(i)
  }

  /** The value of a run of decimal digits, as JavaScript converts such a string to a number. */
  function ParseDigits(s: string): (n: nat)
    requires AllDigits(s)
  {
    if |s| == 0 then 0
    else ParseDigits(s[..|s| - 1]) * 10 + DigitValue(s[|s| - 1])
  }

  /** Parsing the printed text of `n` gives `n` back. */
  lemma {:induction false} ParseNatToString(n: nat)
    ensures AllDigits(NatToString(n)) && ParseDigits(NatToString(n)) == n
  {
    var s := NatToString(n);
    NatToStringCanonical(n);
    if n >= 10 {
      NatToStringCanonical(n / 10);
      var t := NatToString(n / 10);
      assert s[..|s| - 1] == t;
      ParseNatToString(n / 10);
    }
  }

  /** Printing is injective: two naturals with the same text are equal. */
  lemma NatToStringInjective(m: nat, n: nat)
    requires NatToString(m) == NatToString(n)
    ensures m == n
  {
    ParseNatToString(m);
    ParseNatToString(n);
  }

  /** Printing the value of a canonical digit string gives the string back. */
  lemma {:induction false} NatToStringOfParse(s: string)
    requires Canonical(s)
    ensures NatToString(ParseDigits(s)) == s
  {
    var n := ParseDigits(s);
    var init := s[..|s| - 1];
    if |s| == 1 {
      assert ParseDigits(init) == 0;
    } else {
      assert Canonical(init) by {
        assert init[0] == s[0];
      }
      NatToStringOfParse(init);
      ParseDigitsPositive(init);
      assert n / 10 == ParseDigits(init);
      assert n % 10 == DigitValue(s[|s| - 1]);
      assert s == init + [s[|s| - 1]];
    }
  }

  /** A canonical digit string of two or more digits has a value of at least 1. */
  lemma {:induction false} ParseDigitsPositive(s: string)
    requires Canonical(s) && |s| >= 1 && s[0] != '0'
    ensures ParseDigits(s) >= 1
  {
    if |s| > 1 {
      var init := s[..|s| - 1];
      assert init[0] == s[0];
      ParseDigitsPositive(init);
    } else {
      assert ParseDigits(s[..0]) == 0;
    }
  }
}

=== FILE: delivery_dashboard.dfy ===
/**
 * The delivery dashboard (`client/src/pages/DeliveryDashboardPage.tsx`):
 * which orders are listed, the order being delivered, the Start and End
 * buttons, the location message it emits and the status badge of a card.
 */
module DeliveryDashboard {
  import opened Wrappers
  import opened Types
  import opened Decimal
  import opened AdminDashboard

  predicate ForDelivery(o: Order) {
    o.status == "ready" || o.status == "out_for_delivery"
  }

  /** `deliveryOrders`: the orders ready or out for delivery, in list order. */
  function DeliveryOrders(orders: seq<Order>): (r: seq<Order>)
    ensures |r| <= |orders|
    ensures forall i :: 0 <= i < |r| ==> ForDelivery(r[i])
    ensures forall o :: o in r <==> o in orders && ForDelivery(o)
  {
    if |orders| == 0 then []
    else (if ForDelivery(orders[0]) then [orders[0]] else []) + DeliveryOrders(orders[1..])
  }

  /** The filter keeps list order: it distributes over concatenation. */
  lemma {:induction false} DeliveryOrdersAppend(a: seq<Order>, b: seq<Order>)
    ensures DeliveryOrders(a + b) == DeliveryOrders(a) + DeliveryOrders(b)
  {
    if |a| == 0 {
      assert a + b == b;
    } else {
      assert (a + b)[1..] == a[1..] + b;
      DeliveryOrdersAppend(a[1..], b);
    }
  }

  /** The list is as long as the ready and the out-for-delivery counts together. */
  lemma {:induction false} DeliveryOrdersCount(orders: seq<Order>)
    ensures |DeliveryOrders(orders)| == Count(orders, "ready") + Count(orders, "out_for_delivery")
  {
    if |orders| > 0 {
      var n := |orders|;
      DeliveryOrdersCount(orders[..n - 1]);
      assert orders == orders[..n - 1] + [orders[n - 1]];
      DeliveryOrdersAppend(orders[..n - 1], [orders[n - 1]]);
      assert DeliveryOrders([orders[n - 1]]) == if ForDelivery(orders[n - 1]) then [orders[n - 1]] else [];
    }
  }

  /** The `driverLocation` message `sendLocationUpdate` emits; nothing without an order and a position. */
  function LocationUpdate(selected: Option<Order>, location: Option<Point>): (m: Option<DriverLocation>)
    ensures m.Some? <==> selected.Some? && location.Some?
    ensures m.Some? ==> m.value.lat == location.value.lat && m.value.lng == location.value.lng
  {
    if selected.None? || location.None? then None
    else Some(DriverLocation(IntToString(selected.value.id), location.value.lat, location.value.lng))
  }

  /** The emitted order id is the order's number in decimal, read back as that number. */
  lemma LocationUpdateNamesOrder(selected: Order, location: Point)
    requires selected.id >= 0
    ensures var m := LocationUpdate(Some(selected), Some(location));
      m.Some? && Canonical(m.value.orderId) && ParseDigits(m.value.orderId) == selected.id
  {
    NatToStringCanonical(selected.id);
    ParseNatToString(selected.id);
  }

  /** The button on an order's card. */
  datatype CardButton = CurrentlyDelivering | StartDelivery(enabled: bool)

  function ButtonFor(selected: Option<Order>, location: Option<Point>, order: Order): (b: CardButton)
    ensures b == CurrentlyDelivering <==> selected.Some? && selected.value.id == order.id
    ensures b.StartDelivery? ==> (b.enabled <==> location.Some?)
  {
    if selected.Some? && selected.value.id == order.id then CurrentlyDelivering
    else StartDelivery(location.Some?)
  }

  /** Pressing a card's button; a disabled or "currently delivering" button does nothing. */
  function PressStart(selected: Option<Order>, location: Option<Point>, order: Order): (r: Option<Order>)
    ensures location.None? ==> r == selected
    ensures ButtonFor(selected, location, order) != StartDelivery(true) ==> r == selected
    ensures ButtonFor(selected, location, order) == StartDelivery(true) ==> r == Some(order)
  {
    if ButtonFor(selected, location, order) == StartDelivery(true) then Some(order) else selected
  }

  /** End Delivery: no order is selected any more. */
  function PressEnd(selected: Option<Order>): (r: Option<Order>)
    ensures r.None?
  {
    None
  }

  /** After Start the emitter has a message to send, and after End it has none. */
  lemma StartThenEmits(selected: Option<Order>, location: Option<Point>, order: Order)
    requires ButtonFor(selected, location, order).StartDelivery?
    ensures LocationUpdate(PressStart(selected, location, order), location).Some? <==> location.Some?
    ensures LocationUpdate(PressEnd(selected), location).None?
  {
  }

  /** The badge on a card: its text and colour class. */
  function CardBadge(o: Order): (b: (string, string))
    ensures o.status == "ready" ==> b.0 == "Ready for Pickup"
    ensures o.status != "ready" ==> b.0 == "Out for Delivery"
  {
    if o.status == "ready" then ("Ready for Pickup", "bg-purple-100 text-purple-800")
    else ("Out for Delivery", "bg-indigo-100 text-indigo-800")
  }

  /** A listed card's colour is the admin colour of its status. */
  lemma CardBadgeColorIsAdminColor(o: Order)
    requires ForDelivery(o)
    ensures AdminColor(o.status) == Some(CardBadge(o).1)
  {
  }
}

=== FILE: lex.dfy ===
/**
 * JavaScript's default string ordering (`Array.prototype.sort` with no
 * comparator), the sort it induces, and `Array.prototype.join`.
 */
module Lex {

  /** `a` sorts no later than `b`: character by character, a proper prefix first. */
  predicate LessEq(a: string, b: string) {
    |a| == 0 || (|b| > 0 && (a[0] < b[0] || (a[0] == b[0] && LessEq(a[1..], b[1..]))))
  }

  lemma {:induction false} LessEqReflexive(a: string)
    ensures LessEq(a, a)
  {
    if |a| > 0 {
      LessEqReflexive(a[1..]);
    }
  }

  lemma {:induction false} LessEqTotal(a: string, b: string)
    ensures LessEq(a, b) || LessEq(b, a)
  {
    if |a| > 0 && |b| > 0 && a[0] == b[0] {
      LessEqTotal(a[1..], b[1..]);
    }
  }

  lemma {:induction false} LessEqAntisymmetric(a: string, b: string)
    requires LessEq(a, b) && LessEq(b, a)
    ensures a == b
  {
    if |a| > 0 && |b| > 0 {
      LessEqAntisymmetric(a[1..], b[1..]);
      assert a == [a[0]] + a[1..] && b == [b[0]] + b[1..];
    }
  }

  lemma {:induction false} LessEqTransitive(a: string, b: string, c: string)
    requires LessEq(a, b) && LessEq(b, c)
    ensures LessEq(a, c)
  {
    if |a| > 0 && |b| > 0 && |c| > 0 && a[0] == b[0] && b[0] == c[0] {
      LessEqTransitive(a[1..], b[1..], c[1..]);
    }
  }

  predicate Sorted(s: seq<string>) {
    forall i, j :: 0 <= i < j < |s| ==> LessEq(s[i], s[j])
  }

  /** Inserts `x` in front of the first element it sorts no later than. */
  function Insert(x: string, s: seq<string>): seq<string> {
    if |s| == 0 then [x]
    else if LessEq(x, s[0]) then [x] + s
    else [s[0]] + Insert(x, s[1..])
  }

  /** Insertion into a sorted sequence keeps it sorted and adds exactly `x`. */
  lemma {:induction false} InsertSorted(x: string, s: seq<string>)
    requires Sorted(s)
    ensures multiset(Insert(x, s)) == multiset(s) + multiset{x}
    ensures Sorted(Insert(x, s))
  {
    if |s| > 0 {
      assert s == [s[0]] + s[1..];
      if LessEq(x, s[0]) {
        LessEqFirstBelowAll(x, s);
      } else {
        InsertSorted(x, s[1..]);
        LessEqTotal(x, s[0]);
        FirstBelowAll(s[0], s[1..], x, Insert(x, s[1..]));
      }
    }
  }

  /** If `x` sorts before the head of a sorted sequence it sorts before all of it. */
  lemma LessEqFirstBelowAll(x: string, s: seq<string>)
    requires Sorted(s) && |s| > 0 && LessEq(x, s[0])
    ensures Sorted([x] + s)
  {
    forall j | 0 < j < |s| ensures LessEq(x, s[j]) {
      LessEqTransitive(x, s[0], s[j]);
    }
  }

  /** Putting `y` in front of `rest` keeps it sorted when `y` is below every element of `rest`. */
  lemma FirstBelowAll(y: string, tail: seq<string>, x: string, rest: seq<string>)
    requires Sorted(rest) && LessEq(y, x)
    requires forall k :: 0 <= k < |tail| ==> LessEq(y, tail[k])
    requires multiset(rest) == multiset(tail) + multiset{x}
    ensures Sorted([y] + rest)
  {
    forall k | 0 <= k < |rest| ensures LessEq(y, rest[k]) {
      assert rest[k] in multiset(rest);
      if rest[k] != x {
        assert rest[k] in multiset(tail);
        var j :| 0 <= j < |tail| && tail[j] == rest[k];
      }
    }
  }

  /** The result of `.sort()` on an array of strings. */
  function Sort(s: seq<string>): seq<string> {
    if |s| == 0 then []
    else Insert(s[|s| - 1], Sort(s[..|s| - 1]))
  }

  /** `.sort()` returns a sorted permutation of its input. */
  lemma {:induction false} SortSorted(s: seq<string>)
    ensures Sorted(Sort(s))
    ensures multiset(Sort(s)) == multiset(s)
  {
    if |s| > 0 {
      SortSorted(s[..|s| - 1]);
      InsertSorted(s[|s| - 1], Sort(s[..|s| - 1]));
      assert s == s[..|s| - 1] + [s[|s| - 1]];
    }
  }

  /** Sorted sequences with the same elements are equal: the sorted order is unique. */
  lemma {:induction false} SortedUnique(a: seq<string>, b: seq<string>)
    requires Sorted(a) && Sorted(b)
    requires multiset(a) == multiset(b)
    ensures a == b
  {
    if |a| == 0 {
      assert |multiset(b)| == 0;
    } else {
      assert |b| == |multiset(b)| == |multiset(a)| == |a|;
      assert a[0] in multiset(b);
      var j :| 0 <= j < |b| && b[j] == a[0];
      assert b[0] in multiset(a);
      var i :| 0 <= i < |a| && a[i] == b[0];
      LessEqReflexive(a[0]);
      assert LessEq(a[0], a[i]);
      assert LessEq(b[0], b[j]);
      LessEqAntisymmetric(a[0], b[0]);
      assert a == [a[0]] + a[1..] && b == [b[0]] + b[1..];
      assert multiset(a) == multiset{a[0]} + multiset(a[1..]);
      assert multiset(b) == multiset{b[0]} + multiset(b[1..]);
      assert a[0] == b[0];
      assert multiset(a[1..]) == multiset(a) - multiset{a[0]};
      assert multiset(b[1..]) == multiset(b) - multiset{b[0]};
      SortedUnique(a[1..], b[1..]);
    }
  }

  /** The sorted result depends only on the elements, not on their input order. */
  lemma SortIgnoresOrder(a: seq<string>, b: seq<string>)
    requires multiset(a) == multiset(b)
    ensures Sort(a) == Sort(b)
  {
    SortSorted(a);
    SortSorted(b);
    SortedUnique(Sort(a), Sort(b));
  }

  /** `parts.join(sep)`: the parts with `sep` between neighbours. */
  function Join(parts: seq<string>, sep: string): (r: string)
    ensures |parts| == 0 ==> r == ""
    ensures |parts| > 0 ==> parts[0] <= r
    ensures |parts| > 0 ==> |parts[|parts| - 1]| <= |r| && r[|r| - |parts[|parts| - 1]|..] == parts[|parts| - 1]
  {
    if |parts| == 0 then ""
    else if |parts| == 1 then parts[0]
    else parts[0] + sep + Join(parts[1..], sep)
  }
}

=== FILE: navbar.dfy ===
/** Which links the navigation bar (`client/src/components/Navbar.tsx`) shows, and their fate at the guards. */
module Navbar {
  import opened Wrappers
  import opened Types
  import opened Access
  import opened Routes

  /** The links shown; `cartBadge` is the number on the cart icon, if any. */
  datatype NavView = NavView(
    menu: bool,
    orders: bool,
    admin: bool,
    deliveries: bool,
    cartBadge: Option<int>,
    profile: bool,
    signOut: bool,
    signIn: bool)

  function View(session: Option<Session>, totalItems: int): (v: NavView)
    ensures v.menu
    ensures v.orders <==> session.Some?
    ensures v.admin <==> session.Some? && session.value.role == Some("admin")
    ensures v.deliveries <==> session.Some? && session.value.role == Some("delivery")
    ensures v.cartBadge.Some? <==> totalItems > 0
    ensures v.cartBadge.Some? ==> v.cartBadge.value == totalItems
    ensures v.profile == v.signOut == session.Some? && v.signIn == session.None?
  {
    var signedIn := session.Some?;
    var role := if signedIn then session.value.role else None;
    NavView(
      true,
      signedIn,
      signedIn && role == Some("admin"),
      signedIn && role == Some("delivery"),
      if totalItems > 0 then Some(totalItems) else None,
      signedIn,
      signedIn,
      !signedIn)
  }

  /** The Admin and Deliveries links lead to pages their guards render, and never show together. */
  lemma DashboardLinksAdmitted(session: Option<Session>, totalItems: int)
    ensures View(session, totalItems).admin ==> Visit(Admin, false, session) == Render
    ensures View(session, totalItems).deliveries ==> Visit(Delivery, false, session) == Render
    ensures !(View(session, totalItems).admin && View(session, totalItems).deliveries)
  {
    DashboardRoutes(session);
  }

  /** Every link shown to a signed-in user gets past the login check of its route. */
  lemma ShownLinksPassLogin(session: Option<Session>, totalItems: int)
    ensures View(session, totalItems).orders ==> Visit(Orders, false, session) != ToLogin
    ensures View(session, totalItems).profile ==> Visit(Profile, false, session) == Render
  {
  }

  /** The Orders link is shown to an admin, whom `/orders` sends home; likewise for delivery. */
  lemma OrdersLinkShownButRefused(totalItems: int)
    ensures View(User("admin"), totalItems).orders && Visit(Orders, false, User("admin")) == ToHome
    ensures View(User("delivery"), totalItems).orders && Visit(Orders, false, User("delivery")) == ToHome
  {
    OrderRoutes(User("admin"));
  }

  /** The Menu link is shown to everyone, and `/products` sends admin and delivery home. */
  lemma MenuLinkShownButRefused(totalItems: int)
    ensures View(User("admin"), totalItems).menu && Visit(Products, false, User("admin")) == ToHome
    ensures View(User("delivery"), totalItems).menu && Visit(Products, false, User("delivery")) == ToHome
  {
    ProductRoutes(User("delivery"));
  }
}

=== FILE: order_detail.dfy ===
/**
 * The order page (`client/src/pages/OrderDetailPage.tsx`): which driver
 * locations it keeps, the ETA countdown and its label, the route it draws,
 * and when the QR code and the live map show.
 */
module OrderDetail {
  import opened Wrappers
  import opened Types
  import opened Decimal
  import opened TimeToken
  import opened DeliveryDashboard

  // Driver locations

  /**
   * The route parameter read as a number, when it is made of digits: the order the page
   * loads and whose room it joins. Other parameters are not read as a number.
   */
  function ParamNumber(param: string): (r: Option<nat>)
    ensures r.Some? <==> |param| > 0 && AllDigits(param)
    ensures r.Some? ==> r.value == ParseDigits(param)
  {
    if |param| > 0 && AllDigits(param) then Some(ParseDigits(param)) else None
  }

  /**
   * The order id the page listens for as written: the raw route parameter
   * compared as text with the event's order id; an empty parameter sets up no listener.
   */
  function ExpectedIdAsWritten(param: string): (r: Option<string>)
    ensures r.None? <==> param == ""
    ensures param != "" ==> r == Some(param)
  {
    if param == "" then None else Some(param)
  }

  /** The order id meant: the number the page joined, written as the dashboard writes ids. */
  function ExpectedId(param: string): (r: Option<string>)
    ensures r.Some? <==> ParamNumber(param).Some?
    ensures r.Some? ==> Canonical(r.value) && ParseDigits(r.value) == ParamNumber(param).value
  {
    match ParamNumber(param)
    case None => None
    case Some(n) =>
      NatToStringCanonical(n);
      ParseNatToString(n);
      Some(NatToString(n))
  }

  /** A driver location event: one for the expected order replaces the stored location, any other is ignored. */
  function OnDriverLocation(expected: Option<string>, current: Option<DriverLocation>, loc: DriverLocation): (r: Option<DriverLocation>)
    ensures expected == Some(loc.orderId) ==> r == Some(loc)
    ensures expected != Some(loc.orderId) ==> r == current
  {
    if expected == Some(loc.orderId) then Some(loc) else current
  }

  /** A run of events, oldest first. */
  function ReplayLocations(expected: Option<string>, current: Option<DriverLocation>, events: seq<DriverLocation>): Option<DriverLocation> {
    if |events| == 0 then current
    else OnDriverLocation(expected, ReplayLocations(expected, current, events[..|events| - 1]), events[|events| - 1])
  }

  /** A run with no event for the expected order leaves the stored location alone. */
  lemma {:induction false} ReplayIgnoresOthers(expected: Option<string>, current: Option<DriverLocation>, events: seq<DriverLocation>)
    requires forall i :: 0 <= i < |events| ==> expected != Some(events[i].orderId)
    ensures ReplayLocations(expected, current, events) == current
  {
    if |events| > 0 {
      var init := events[..|events| - 1];
      assert forall i :: 0 <= i < |init| ==> init[i] == events[i];
      ReplayIgnoresOthers(expected, current, init);
    }
  }

  /** Last write wins: after a run the page holds the last event for its order. */
  lemma {:induction false} ReplayKeepsLastAccepted(expected: Option<string>, current: Option<DriverLocation>, events: seq<DriverLocation>, i: nat)
    requires i < |events| && expected == Some(events[i].orderId)
    requires forall j :: i < j < |events| ==> expected != Some(events[j].orderId)
    ensures ReplayLocations(expected, current, events) == Some(events[i])
  {
    var n := |events|;
    if i < n - 1 {
      var init := events[..n - 1];
      assert init[i] == events[i];
      assert forall j :: i < j < |init| ==> init[j] == events[j];
      ReplayKeepsLastAccepted(expected, current, init, i);
    }
  }

  /** With a parameter in canonical form the written and the meant test agree. */
  lemma ExpectedIdAgreesOnCanonical(param: string)
    requires Canonical(param)
    ensures ExpectedId(param) == ExpectedIdAsWritten(param)
  {
    NatToStringOfParse(param);
  }

  /** The page keeps exactly the locations the dashboard emits for the order it shows. */
  lemma AcceptsEmittedLocation(param: string, order: Order, position: Point)
    requires order.id >= 0
    ensures var m := LocationUpdate(Some(order), Some(position)).value;
      ExpectedId(param) == Some(m.orderId) <==> ParamNumber(param) == Some(order.id)
  {
    var m := LocationUpdate(Some(order), Some(position)).value;
    if ExpectedId(param) == Some(m.orderId) {
      NatToStringInjective(ParamNumber(param).value, order.id);
    }
  }

  /**
   * As written, the page at `/orders/042` shows order 42 and joins its room,
   * yet drops the location the dashboard emits for order 42.
   */
  lemma AsWrittenDropsOwnOrder(order: Order, position: Point)
    requires order.id == 42
    ensures ParamNumber("042") == Some(42)
    ensures var m := LocationUpdate(Some(order), Some(position)).value;
      && OnDriverLocation(ExpectedIdAsWritten("042"), None, m) == None
      && OnDriverLocation(ExpectedId("042"), None, m) == Some(m)
  {
    assert "042"[..2] == "04" && "04"[..1] == "0" && "0"[..0] == "";
    assert ParseDigits("042") == 42;
    AcceptsEmittedLocation("042", order, position);
    assert LocationUpdate(Some(order), Some(position)).value.orderId == NatToString(42);
    assert NatToString(42) == "42";
  }

  // ETA countdown

  /** One second of the countdown: nothing or zero and below stays 0, anything else goes down by one. */
  function Tick(eta: Option<int>): (r: int)
    ensures r >= 0
    ensures eta.None? || eta.value <= 0 ==> r == 0
    ensures eta.Some? && eta.value > 0 ==> r == eta.value - 1
  {
    if eta.None? || eta.value <= 0 then 0 else eta.value - 1
  }

  /** `n` seconds of the countdown. */
  function Ticks(eta: Option<int>, n: nat): Option<int>
    decreases n
  {
    if n == 0 then eta else Ticks(Some(Tick(eta)), n - 1)
  }

  /** From `e` seconds, `n` ticks leave `e - n` seconds, and never less than 0. */
  lemma {:induction false} TicksCountDown(e: int, n: nat)
    requires e >= 0
    ensures Ticks(Some(e), n) == Some(if e >= n then e - n else 0)
    decreases n
  {
    if n > 0 {
      TicksCountDown(Tick(Some(e)), n - 1);
    }
  }

  /** The countdown interval runs only with a positive ETA on an order out for delivery. */
  predicate CountdownRunning(eta: Option<int>, status: Option<string>) {
    eta.Some? && eta.value > 0 && status == Some("out_for_delivery")
  }

  /** A running countdown strictly decreases and stops after as many ticks as it had seconds. */
  lemma CountdownStops(e: int, status: Option<string>)
    requires CountdownRunning(Some(e), status)
    ensures 0 <= Tick(Some(e)) < e
    ensures !CountdownRunning(Ticks(Some(e), e), status)
  {
    TicksCountDown(e, e);
  }

  /** The ETA text: "Arriving Soon!" at zero or below, else "~" and the token. */
  function EtaLabel(eta: int): (s: string)
    ensures eta <= 0 ==> s == "Arriving Soon!"
    ensures eta > 0 ==> |s| >= 1 && s[0] == '~' && ParseTimeToken(s[1..]) == Some(eta)
  {
    if eta <= 0 then "Arriving Soon!"
    else
      var s := "~" + FormatTimeToken(eta);
      FormatParseRoundTrip(eta);
      assert s[1..] == FormatTimeToken(eta);
      s
  }

  // Route

  /** The restaurant, where the first route starts. */
  const Restaurant := Point(Coord("42.6629"), Coord("21.1655"))

  /** The first route is fetched from the restaurant only for an order out for delivery with no driver and no ETA yet. */
  function InitialRouteStart(order: Option<Order>, driver: Option<DriverLocation>, eta: Option<int>): (r: Option<Point>)
    ensures r.Some? ==> r.value == Restaurant
    ensures r.Some? <==> order.Some? && driver.None? && eta.None? && order.value.status == "out_for_delivery"
  {
    if order.Some? && driver.None? && eta.None? && order.value.status == "out_for_delivery" then Some(Restaurant)
    else None
  }

  /**
   * The destination: each of the order's coordinates where it is a non-empty
   * string, else that part of `offset` (the start moved by 0.01 degrees).
   */
  function Destination(order: Order, offset: Point): (d: Point)
    ensures order.deliveryLat.Some? && order.deliveryLat.value != "" ==> d.lat == Coord(order.deliveryLat.value)
    ensures !(order.deliveryLat.Some? && order.deliveryLat.value != "") ==> d.lat == offset.lat
    ensures order.deliveryLng.Some? && order.deliveryLng.value != "" ==> d.lng == Coord(order.deliveryLng.value)
    ensures !(order.deliveryLng.Some? && order.deliveryLng.value != "") ==> d.lng == offset.lng
  {
    Point(
      if order.deliveryLat.Some? && order.deliveryLat.value != "" then Coord(order.deliveryLat.value) else offset.lat,
      if order.deliveryLng.Some? && order.deliveryLng.value != "" then Coord(order.deliveryLng.value) else offset.lng)
  }

  /** What the routing service answers: GeoJSON `[lng, lat]` pairs and a duration, no route, or an error. */
  datatype RouteAnswer = Found(coordinates: seq<(Coord, Coord)>, duration: real) | NoRoute | Failure

  /** The drawn route and the ETA in seconds. */
  datatype Tracking = Tracking(route: seq<Point>, eta: Option<int>)

  /** The least integer not below `x`. */
  function Ceil(x: real): (c: int)
    ensures c as real - 1.0 < x <= c as real
  {
    if x.Floor as real == x then x.Floor else x.Floor + 1
  }

  /** GeoJSON pairs to `[lat, lng]` points. */
  function FromGeoJson(coordinates: seq<(Coord, Coord)>): (r: seq<Point>)
    ensures |r| == |coordinates|
    ensures forall i :: 0 <= i < |r| ==> r[i] == Point(coordinates[i].1, coordinates[i].0)
  {
    seq(|coordinates|, i requires 0 <= i < |coordinates| => Point(coordinates[i].1, coordinates[i].0))
  }

  function ToGeoJson(route: seq<Point>): seq<(Coord, Coord)> {
    seq(|route|, i requires 0 <= i < |route| => (route[i].lng, route[i].lat))
  }

  /** The swap loses nothing: converting back gives the service's pairs. */
  lemma GeoJsonRoundTrip(coordinates: seq<(Coord, Coord)>)
    ensures ToGeoJson(FromGeoJson(coordinates)) == coordinates
  {
  }

  /**
   * `fetchRoute` with the service's answer: nothing without an order; a found
   * route is drawn and a non-zero duration rounded up becomes the ETA; no route
   * or an error draws the straight line to the destination and clears the ETA.
   */
  function ApplyRoute(t: Tracking, order: Option<Order>, start: Point, offset: Point, answer: RouteAnswer): (r: Tracking)
    ensures order.None? ==> r == t
    ensures order.Some? && !answer.Found? ==> r == Tracking([start, Destination(order.value, offset)], None)
    ensures order.Some? && answer.Found? ==> r.route == FromGeoJson(answer.coordinates)
    ensures order.Some? && answer.Found? && answer.duration != 0.0 ==>
      r.eta.Some? && r.eta.value as real - 1.0 < answer.duration <= r.eta.value as real
    ensures order.Some? && answer.Found? && answer.duration == 0.0 ==> r.eta == t.eta
  {
    if order.None? then t
    else
      match answer
      case Found(coordinates, duration) =>
        Tracking(FromGeoJson(coordinates), if duration != 0.0 then Some(Ceil(duration)) else t.eta)
      case _ => Tracking([start, Destination(order.value, offset)], None)
  }

  // Visibility

  /** The QR code shows for an order ready or out for delivery. */
  function ShowQr(status: string): (b: bool)
    ensures b <==> ParseStatus(status) == Some(Ready) || ParseStatus(status) == Some(OutForDelivery)
  {
    status == "out_for_delivery" || status == "ready"
  }

  /** The value the QR code encodes: the order id in decimal. */
  function QrValue(order: Order): (s: string)
    ensures order.id >= 0 ==> AllDigits(s) && ParseDigits(s) == order.id
  {
    ParseNatToString(if order.id >= 0 then order.id else 0);
    IntToString(order.id)
  }

  /** The live map shows once a driver location is known and the order is out for delivery. */
  function ShowLiveTracking(driver: Option<DriverLocation>, status: string): (b: bool)
    ensures b <==> driver.Some? && ParseStatus(status) == Some(OutForDelivery)
  {
    driver.Some? && status == "out_for_delivery"
  }

  /** The QR code is showing whenever the live map is. */
  lemma LiveTrackingShowsQr(driver: Option<DriverLocation>, status: string)
    ensures ShowLiveTracking(driver, status) ==> ShowQr(status)
  {
  }
}

=== FILE: product_detail.dfy ===
/**
 * The product page (`client/src/pages/ProductDetailPage.tsx`): choosing
 * options, checking the required ones, turning the choices into the cart's
 * selected options, the displayed total and the quantity stepper.
 */
module ProductDetail {
  import opened Wrappers
  import opened Types
  import opened CartKey
  import opened Cart

  /**
   * The page's `Record<string, string>` of option name to chosen label, as
   * its entries in insertion order (the order `Object.entries` reports).
   */
  type Selections = seq<(string, string)>

  function Names(sel: Selections): seq<string> {
    seq(|sel|, i requires 0 <= i < |sel| => sel[i].0)
  }

  predicate DistinctNames(sel: Selections) {
    forall i, j :: 0 <= i < j < |sel| ==> sel[i].0 != sel[j].0
  }

  /** The label chosen for `name`, if any. */
  function Lookup(sel: Selections, name: string): (r: Option<string>)
    ensures r.None? <==> forall i :: 0 <= i < |sel| ==> sel[i].0 != name
    ensures r.Some? ==> exists i :: 0 <= i < |sel| && sel[i] == (name, r.value)
  {
    if |sel| == 0 then None
    else if sel[0].0 == name then Some(sel[0].1)
    else
      var r := Lookup(sel[1..], name);
      assert r.Some? ==> sel[1..][0..] == sel[1..];
      r
  }

  /** `handleOptionChange`: the name now maps to the choice; an existing name keeps its place, a new one goes last. */
  function ChooseOption(sel: Selections, name: string, choice: string): (r: Selections)
    ensures name in Names(sel) ==> |r| == |sel| && Names(r) == Names(sel)
    ensures name !in Names(sel) ==> r == sel + [(name, choice)]
  {
    if |sel| == 0 then [(name, choice)]
    else if sel[0].0 == name then
      assert Names(sel)[0] == name;
      var r := [(name, choice)] + sel[1..];
      assert Names(r) == Names(sel) by {
        assert forall i :: 0 <= i < |r| ==> Names(r)[i] == Names(sel)[i];
      }
      r
    else
      var rest := ChooseOption(sel[1..], name, choice);
      var r := [sel[0]] + rest;
      assert Names(sel) == [sel[0].0] + Names(sel[1..]);
      assert name in Names(sel[1..]) ==> Names(r) == [sel[0].0] + Names(rest);
      r
  }

  /** The first option of the product with this name. */
  function FindOption(options: seq<ProductOption>, name: string): (r: Option<ProductOption>)
    ensures r.None? <==> forall i :: 0 <= i < |options| ==> options[i].name != name
    ensures r.Some? ==> exists i :: (0 <= i < |options| && options[i] == r.value && r.value.name == name
      && forall j :: 0 <= j < i ==> options[j].name != name)
  {
    if |options| == 0 then None
    else if options[0].name == name then Some(options[0])
    else
      var r := FindOption(options[1..], name);
      if r.Some? then
        var i :| 0 <= i < |options| - 1 && options[1..][i] == r.value && r.value.name == name
          && forall j :: 0 <= j < i ==> options[1..][j].name != name;
        assert options[i + 1] == r.value;
        assert forall j :: 0 <= j < i + 1 ==> options[j].name != name by {
          forall j | 0 < j < i + 1 ensures options[j].name != name {
            assert options[j] == options[1..][j - 1];
          }
        }
        r
      else r
  }

  /** The first choice with this label. */
  function FindChoice(choices: seq<Choice>, labelText: string): (r: Option<Choice>)
    ensures r.None? <==> forall i :: 0 <= i < |choices| ==> choices[i].labelText != labelText
    ensures r.Some? ==> exists i :: (0 <= i < |choices| && choices[i] == r.value && r.value.labelText == labelText
      && forall j :: 0 <= j < i ==> choices[j].labelText != labelText)
  {
    if |choices| == 0 then None
    else if choices[0].labelText == labelText then Some(choices[0])
    else
      var r := FindChoice(choices[1..], labelText);
      if r.Some? then
        var i :| 0 <= i < |choices| - 1 && choices[1..][i] == r.value && r.value.labelText == labelText
          && forall j :: 0 <= j < i ==> choices[1..][j].labelText != labelText;
        assert choices[i + 1] == r.value;
        assert forall j :: 0 <= j < i + 1 ==> choices[j].labelText != labelText by {
          forall j | 0 < j < i + 1 ensures choices[j].labelText != labelText {
            assert choices[j] == choices[1..][j - 1];
          }
        }
        r
      else r
  }

  /** The matching choice's price, zero when no option or no choice matches. */
  function ChoicePrice(options: seq<ProductOption>, name: string, choice: string): (p: real)
    ensures FindOption(options, name).None? ==> p == 0.0
    ensures FindOption(options, name).Some? && FindChoice(FindOption(options, name).value.choices, choice).None? ==> p == 0.0
    ensures FindOption(options, name).Some? && FindChoice(FindOption(options, name).value.choices, choice).Some? ==>
      p == FindChoice(FindOption(options, name).value.choices, choice).value.price
  {
    match FindOption(options, name)
    case None => 0.0
    case Some(o) =>
      match FindChoice(o.choices, choice)
      case None => 0.0
      case Some(c) => c.price
  }

  /** `optionsArray`: one selected option per chosen entry, in entry order, priced by `ChoicePrice`. */
  function OptionsArray(options: seq<ProductOption>, sel: Selections): (r: seq<SelectedOption>)
    ensures |r| == |sel|
    ensures forall i :: 0 <= i < |sel| ==>
      r[i] == SelectedOption(sel[i].0, sel[i].1, ChoicePrice(options, sel[i].0, sel[i].1))
  {
    seq(|sel|, i requires 0 <= i < |sel| => SelectedOption(sel[i].0, sel[i].1, ChoicePrice(options, sel[i].0, sel[i].1)))
  }

  /** The `optionsPrice` reduce of the page, left to right over the entries. */
  function SelectionsPrice(options: seq<ProductOption>, sel: Selections): real {
    if |sel| == 0 then 0.0
    else SelectionsPrice(options, sel[..|sel| - 1]) + ChoicePrice(options, sel[|sel| - 1].0, sel[|sel| - 1].1)
  }

  /** The `totalPrice` shown on the add button. */
  function DisplayTotal(product: Product, sel: Selections, quantity: int): real {
    (product.price + SelectionsPrice(product.options, sel)) * quantity as real
  }

  /** A required option counts as chosen only with a non-empty label; a missing or empty one is falsy. */
  predicate Chosen(sel: Selections, name: string) {
    Lookup(sel, name).Some? && Lookup(sel, name).value != ""
  }

  /** The first required option, in product order, that is not chosen. */
  function MissingRequired(options: seq<ProductOption>, sel: Selections): (r: Option<string>)
    ensures r.None? <==> forall i :: 0 <= i < |options| && options[i].required ==> Chosen(sel, options[i].name)
    ensures r.Some? ==> exists i :: (0 <= i < |options| && options[i].required && options[i].name == r.value
      && !Chosen(sel, r.value)
      && forall j :: 0 <= j < i && options[j].required ==> Chosen(sel, options[j].name))
  {
    if |options| == 0 then None
    else if options[0].required && !Chosen(sel, options[0].name) then Some(options[0].name)
    else
      var r := MissingRequired(options[1..], sel);
      if r.Some? then
        var i :| 0 <= i < |options| - 1 && options[1..][i].required && options[1..][i].name == r.value
          && !Chosen(sel, r.value)
          && forall j :: 0 <= j < i && options[1..][j].required ==> Chosen(sel, options[1..][j].name);
        assert options[i + 1] == options[1..][i];
        assert forall j :: 0 <= j < i + 1 && options[j].required ==> Chosen(sel, options[j].name) by {
          forall j | 0 < j < i + 1 && options[j].required ensures Chosen(sel, options[j].name) {
            assert options[j] == options[1..][j - 1];
          }
        }
        r
      else
        assert forall i :: 0 < i < |options| ==> options[i] == options[1..][i - 1];
        r
  }

  /** What pressing "Add to Cart" does. */
  datatype AddOutcome =
    | Rejected(error: string)
    | Added(lines: Lines, navigateTo: string)

  /** `handleAddToCart`: refuse with the first missing required option, else add and go to the cart. */
  function AddToCart(lines: Lines, product: Product, sel: Selections, quantity: int): (r: AddOutcome)
    ensures r.Rejected? <==> MissingRequired(product.options, sel).Some?
    ensures r.Rejected? ==> r.error == "Please select " + MissingRequired(product.options, sel).value
    ensures r.Added? ==> (r.navigateTo == "/cart"
      && r.lines == AddItem(CartItemKey, lines, product, quantity, OptionsArray(product.options, sel)))
  {
    match MissingRequired(product.options, sel)
    case Some(name) => Rejected("Please select " + name)
    case None => Added(AddItem(CartItemKey, lines, product, quantity, OptionsArray(product.options, sel)), "/cart")
  }

  /** The stepper's minus: one less, but never below one. */
  function StepDown(quantity: int): (r: int)
    ensures r >= 1
    ensures quantity >= 2 ==> r == quantity - 1
    ensures quantity <= 2 ==> r == 1
  {
    if 1 < quantity - 1 then quantity - 1 else 1
  }

  /** The stepper's plus. */
  function StepUp(quantity: int): int {
    quantity + 1
  }

  /** A run of presses from the initial quantity 1: `true` is plus, `false` is minus. */
  function Press(quantity: int, presses: seq<bool>): int
    decreases |presses|
  {
    if |presses| == 0 then quantity
    else Press(if presses[0] then StepUp(quantity) else StepDown(quantity), presses[1..])
  }

  // Properties

  /** Choosing sets that option's label and leaves every other option's choice. */
  lemma {:induction false} ChooseOptionLookup(sel: Selections, name: string, choice: string, other: string)
    ensures Lookup(ChooseOption(sel, name, choice), name) == Some(choice)
    ensures other != name ==> Lookup(ChooseOption(sel, name, choice), other) == Lookup(sel, other)
  {
    if |sel| > 0 && sel[0].0 != name {
      ChooseOptionLookup(sel[1..], name, choice, other);
      assert ChooseOption(sel, name, choice)[1..] == ChooseOption(sel[1..], name, choice);
    }
  }

  /** At most one choice per option name survives any number of choices, for radio and check boxes alike. */
  lemma ChooseOptionKeepsNamesDistinct(sel: Selections, name: string, choice: string)
    requires DistinctNames(sel)
    ensures DistinctNames(ChooseOption(sel, name, choice))
  {
    var r := ChooseOption(sel, name, choice);
    if name in Names(sel) {
      assert forall i :: 0 <= i < |r| ==> r[i].0 == Names(r)[i] == Names(sel)[i] == sel[i].0;
    } else {
      assert forall i :: 0 <= i < |sel| ==> sel[i].0 == Names(sel)[i];
    }
  }

  /** Choosing the same label twice is the same as choosing it once. */
  lemma {:induction false} ChooseOptionIdempotent(sel: Selections, name: string, choice: string)
    ensures ChooseOption(ChooseOption(sel, name, choice), name, choice) == ChooseOption(sel, name, choice)
  {
    if |sel| > 0 && sel[0].0 != name {
      ChooseOptionIdempotent(sel[1..], name, choice);
      assert ChooseOption(sel, name, choice)[1..] == ChooseOption(sel[1..], name, choice);
    }
  }

  lemma {:induction false} OptionsPriceOfArray(options: seq<ProductOption>, sel: Selections)
    ensures OptionsPrice(OptionsArray(options, sel)) == SelectionsPrice(options, sel)
  {
    if |sel| > 0 {
      var n := |sel|;
      OptionsPriceOfArray(options, sel[..n - 1]);
      assert OptionsArray(options, sel)[..n - 1] == OptionsArray(options, sel[..n - 1]);
    }
  }

  /** The subtotal the cart computes for the built options is the total the page showed. */
  lemma CartSubtotalIsDisplayTotal(product: Product, sel: Selections, quantity: int)
    ensures LineSubtotal(product, OptionsArray(product.options, sel), quantity) == DisplayTotal(product, sel, quantity)
  {
    var opts := OptionsArray(product.options, sel);
    OptionsPriceOfArray(product.options, sel);
    assert UnitPrice(product, opts) == product.price + SelectionsPrice(product.options, sel);
  }

  /** A successful add raises the cart totals by the quantity and by the displayed total. */
  lemma AddToCartTotals(lines: Lines, product: Product, sel: Selections, quantity: int)
    requires MissingRequired(product.options, sel).None?
    ensures AddToCart(lines, product, sel, quantity).Added?
    ensures TotalItems(AddToCart(lines, product, sel, quantity).lines) == TotalItems(lines) + quantity
    ensures TotalPrice(AddToCart(lines, product, sel, quantity).lines) == TotalPrice(lines) + DisplayTotal(product, sel, quantity)
  {
    AddItemTotals(CartItemKey, lines, product, quantity, OptionsArray(product.options, sel));
    CartSubtotalIsDisplayTotal(product, sel, quantity);
  }

  /** Minus undoes plus for every quantity the page can show. */
  lemma StepDownUndoesStepUp(quantity: int)
    requires quantity >= 1
    ensures StepDown(StepUp(quantity)) == quantity
  {
  }

  /** From the initial quantity 1, no sequence of presses brings the quantity below 1. */
  lemma {:induction false} PressesStayPositive(quantity: int, presses: seq<bool>)
    requires quantity >= 1
    ensures Press(quantity, presses) >= 1
    decreases |presses|
  {
    if |presses| > 0 {
      PressesStayPositive(if presses[0] then StepUp(quantity) else StepDown(quantity), presses[1..]);
    }
  }
}

=== FILE: routes.dfy ===
/** The route table of `client/src/App.tsx`, each path with its guard or none. */
module Routes {
  import opened Wrappers
  import opened Types
  import opened Access

  datatype Route =
    | Home | Login | Signup | Products | ProductPage | CartPage
    | CheckoutPage | Orders | OrderPage | Profile | Admin | Delivery

  /** The guard wrapped around each route's page; `None` for the public routes. */
  function GuardOf(r: Route): Option<Guard> {
    match r
    case Home => None
    case Login => None
    case Signup => None
    case CartPage => None
    case Products => Some(Guard(None, Some(["delivery", "admin"]), true))
    case ProductPage => Some(Guard(None, Some(["delivery", "admin"]), true))
    case CheckoutPage => Some(SignedIn)
    case Profile => Some(SignedIn)
    case Orders => Some(Guard(None, Some(["delivery", "admin"]), false))
    case OrderPage => Some(Guard(None, Some(["delivery", "admin"]), false))
    case Admin => Some(Guard(Some(["admin"]), None, false))
    case Delivery => Some(Guard(Some(["delivery"]), None, false))
  }

  /** What visiting a route shows; a public route renders at once. */
  function Visit(r: Route, pending: bool, session: Option<Session>): (d: Decision)
    ensures GuardOf(r).None? ==> d == Render
    ensures GuardOf(r).Some? ==> (pending <==> d == Spinner)
  {
    match GuardOf(r)
    case None => Render
    case Some(g) => Decide(pending, session, g)
  }

  /** A signed-in user with a string role. */
  function User(role: string): Option<Session> {
    Some(Session("u", Some(role)))
  }

  /** `/`, `/login`, `/signup` and `/cart` render for everyone, even while the session loads. */
  lemma PublicRoutesRender(pending: bool, session: Option<Session>)
    ensures Visit(Home, pending, session) == Render && Visit(Login, pending, session) == Render
    ensures Visit(Signup, pending, session) == Render && Visit(CartPage, pending, session) == Render
  {
  }

  /**
   * `/admin` renders for a signed-in user whose role is "admin" or not a
   * string, sends a guest to the login page and every other role home; the
   * same holds for `/delivery` with "delivery".
   */
  lemma DashboardRoutes(session: Option<Session>)
    ensures Visit(Admin, false, session) == Render <==>
      session.Some? && (session.value.role == Some("admin") || session.value.role.None?)
    ensures Visit(Delivery, false, session) == Render <==>
      session.Some? && (session.value.role == Some("delivery") || session.value.role.None?)
    ensures session.None? ==> Visit(Admin, false, session) == ToLogin && Visit(Delivery, false, session) == ToLogin
  {
  }

  /** `/orders` and `/orders/:orderId` need a session and send admin and delivery home. */
  lemma OrderRoutes(session: Option<Session>)
    ensures session.None? ==> Visit(Orders, false, session) == ToLogin && Visit(OrderPage, false, session) == ToLogin
    ensures Visit(Orders, false, User("admin")) == ToHome && Visit(Orders, false, User("delivery")) == ToHome
    ensures Visit(OrderPage, false, User("admin")) == ToHome && Visit(OrderPage, false, User("delivery")) == ToHome
    ensures session.Some? && session.value.role != Some("admin") && session.value.role != Some("delivery") ==>
      Visit(Orders, false, session) == Render && Visit(OrderPage, false, session) == Render
  {
  }

  /** `/products` and `/products/:productId` admit guests but send admin and delivery home. */
  lemma ProductRoutes(session: Option<Session>)
    ensures Visit(Products, false, None) == Render && Visit(ProductPage, false, None) == Render
    ensures Visit(Products, false, User("admin")) == ToHome && Visit(ProductPage, false, User("delivery")) == ToHome
    ensures Visit(Products, false, session) == Visit(ProductPage, false, session)
    ensures Visit(Products, false, session) == ToHome <==>
      session.Some? && (session.value.role == Some("admin") || session.value.role == Some("delivery"))
  {
  }

  /** `/checkout` and `/profile` need a session and admit any role. */
  lemma SignedInRoutes(session: Option<Session>)
    ensures Visit(CheckoutPage, false, session) == (if session.None? then ToLogin else Render)
    ensures Visit(Profile, false, session) == (if session.None? then ToLogin else Render)
  {
  }
}

=== FILE: status_badge.dfy ===
/**
 * The status badge (`client/src/components/OrderStatusBadge.tsx`): a label
 * and a colour class per status, with the pending entry for anything else.
 */
module StatusBadge {
  import opened Wrappers
  import opened Types

  datatype BadgeConfig = BadgeConfig(labelText: string, color: string)

  /** The `statusConfig` table. */
  function ConfigOf(s: OrderStatus): BadgeConfig {
    match s
    case Pending => BadgeConfig("Pending", "bg-yellow-100 text-yellow-800")
    case Preparing => BadgeConfig("Preparing", "bg-blue-100 text-blue-800")
    case Ready => BadgeConfig("Ready", "bg-purple-100 text-purple-800")
    case OutForDelivery => BadgeConfig("Out for Delivery", "bg-indigo-100 text-indigo-800")
    case Delivered => BadgeConfig("Delivered", "bg-green-100 text-green-800")
    case Cancelled => BadgeConfig("Cancelled", "bg-red-100 text-red-800")
  }

  /** The badge for the status string an order carries; the pending badge where the table has no entry. */
  function BadgeFor(status: string): (c: BadgeConfig)
    ensures forall s :: status == StatusName(s) ==> c == ConfigOf(s)
    ensures ParseStatus(status).None? ==> c == ConfigOf(Pending) && c.labelText == "Pending"
  {
    match ParseStatus(status)
    case Some(s) => ConfigOf(s)
    case None => ConfigOf(Pending)
  }

  /** The six labels are pairwise distinct, so a label names its status. */
  lemma LabelsDistinct(a: OrderStatus, b: OrderStatus)
    requires ConfigOf(a).labelText == ConfigOf(b).labelText
    ensures a == b
  {
    assert ConfigOf(a).labelText[0] == ConfigOf(b).labelText[0];
    assert |ConfigOf(a).labelText| == |ConfigOf(b).labelText|;
  }

  /** A badge reads "Pending" exactly for "pending" and for strings that are no status. */
  lemma PendingLabelMeansPendingOrUnknown(status: string)
    ensures BadgeFor(status).labelText == "Pending" <==> status == "pending" || ParseStatus(status).None?
  {
    match ParseStatus(status)
    case Some(s) =>
      if BadgeFor(status).labelText == "Pending" {
        LabelsDistinct(s, Pending);
      }
    case None =>
  }
}

=== FILE: time_token.dfy ===
/**
 * `formatTimeToken` of the order page: whole minutes, a colon, and the
 * seconds padded to two digits, with JavaScript's `Math.floor` and `%`.
 */
module TimeToken {
  import opened Wrappers
  import opened Decimal

  /** JavaScript's `a % b`: the remainder takes the sign of `a`. */
  function JsRem(a: int, b: int): (r: int)
    requires b > 0
    ensures -b < r < b
    ensures a >= 0 ==> r == a % b
  {
    if a >= 0 then a % b else -((-a) % b)
  }

  /** Left-padded with zeros to two characters; longer text is left as it is. */
  function PadStart2(s: string): (r: string)
    ensures |s| >= 2 ==> r == s
    ensures |s| < 2 ==> |r| == 2 && r[2 - |s|..] == s && forall i :: 0 <= i < 2 - |s| ==> r[i] == '0'
  {
    if |s| >= 2 then s else if |s| == 1 then "0" + s else "00"
  }

  /** The floored minutes, a colon, and the remainder of division by 60 padded to two digits. */
  function FormatTimeToken(t: int): string {
    IntToString(t / 60) + ":" + PadStart2(IntToString(JsRem(t, 60)))
  }

  /** Reads `m:ss` back: digits, a colon, two digits below 60. */
  function ParseTimeToken(s: string): Option<nat> {
    if |s| >= 4 && s[|s| - 3] == ':' && AllDigits(s[..|s| - 3]) && AllDigits(s[|s| - 2..])
       && ParseDigits(s[|s| - 2..]) < 60
    then Some(ParseDigits(s[..|s| - 3]) * 60 + ParseDigits(s[|s| - 2..]))
    else None
  }

  /** A number below 100 prints as two digits after padding, and reads back as itself. */
  lemma {:induction false} TwoDigits(n: nat)
    requires n < 100
    ensures var p := PadStart2(NatToString(n));
      |p| == 2 && AllDigits(p) && ParseDigits(p) == n
  {
    ParseNatToString(n);
    var p := PadStart2(NatToString(n));
    if n < 10 {
      assert p == "0" + NatToString(n);
      assert p[..1] == "0";
      assert ParseDigits(p[..1]) == ParseDigits(p[..0]) * 10 + DigitValue('0');
      assert p[..0] == [];
    } else {
      assert NatToString(n) == NatToString(n / 10) + [DigitChar(n % 10)];
    }
  }

  /** Reading `a:b` back when `a` is digits and `b` two digits below 60. */
  lemma ParseJoined(a: string, b: string)
    requires |a| >= 1 && AllDigits(a) && |b| == 2 && AllDigits(b) && ParseDigits(b) < 60
    ensures var s := a + ":" + b;
      && |s| >= 4 && s[|s| - 3] == ':' && s[|s| - 2..] == b
      && ParseTimeToken(s) == Some(ParseDigits(a) * 60 + ParseDigits(b))
  {
    var s := a + ":" + b;
    var n := |s|;
    assert n - 3 == |a| && s[n - 3] == ':';
    assert s[..n - 3] == a;
    assert s[n - 2..] == b;
    assert ParseTimeToken(s) == Some(ParseDigits(s[..n - 3]) * 60 + ParseDigits(s[n - 2..]));
  }

  /** For a non-negative count the token is the two printed parts around the colon. */
  lemma FormatParts(t: int)
    requires t >= 0
    ensures FormatTimeToken(t) == NatToString(t / 60) + ":" + PadStart2(NatToString(t % 60))
  {
  }

  /** Minutes and seconds printed around a colon read back as `60 * m + r`. */
  lemma PartsRoundTrip(m: nat, r: nat)
    requires r < 60
    ensures var s := NatToString(m) + ":" + PadStart2(NatToString(r));
      && |s| >= 4 && s[|s| - 3] == ':'
      && AllDigits(s[|s| - 2..]) && ParseDigits(s[|s| - 2..]) < 60
      && ParseTimeToken(s) == Some(m * 60 + r)
  {
    var a := NatToString(m);
    var b := PadStart2(NatToString(r));
    ParseNatToString(m);
    NatToStringCanonical(m);
    TwoDigits(r);
    JoinedParts(a, b, m, r);
  }

  /** Any digit string and any two digits below 60 around a colon read back as their values. */
  lemma JoinedParts(a: string, b: string, m: nat, r: nat)
    requires |a| >= 1 && AllDigits(a) && ParseDigits(a) == m
    requires |b| == 2 && AllDigits(b) && ParseDigits(b) == r && r < 60
    ensures var s := a + ":" + b;
      && |s| >= 4 && s[|s| - 3] == ':'
      && AllDigits(s[|s| - 2..]) && ParseDigits(s[|s| - 2..]) < 60
      && ParseTimeToken(s) == Some(m * 60 + r)
  {
    ParseJoined(a, b);
  }

  /**
   * For a non-negative count of seconds the token is minutes, a colon and a
   * two-digit seconds field below 60, and it reads back as the count.
   */
  lemma FormatParseRoundTrip(t: int)
    requires t >= 0
    ensures var s := FormatTimeToken(t);
      && |s| >= 4 && s[|s| - 3] == ':'
      && AllDigits(s[|s| - 2..]) && ParseDigits(s[|s| - 2..]) < 60
      && ParseTimeToken(s) == Some(t)
  {
    var m, r := t / 60, t % 60;
    assert m * 60 + r == t;
    FormatParts(t);
    PartsRoundTrip(m, r);
    assert FormatTimeToken(t) == NatToString(m) + ":" + PadStart2(NatToString(r));
  }

  /** Distinct non-negative counts give distinct tokens. */
  lemma FormatTimeTokenInjective(a: int, b: int)
    requires a >= 0 && b >= 0 && FormatTimeToken(a) == FormatTimeToken(b)
    ensures a == b
  {
    FormatParseRoundTrip(a);
    FormatParseRoundTrip(b);
  }
}

=== FILE: types.dfy ===
/** The entities the client works with, after `client/src/types/index.ts`. */
module Types {
  import opened Wrappers

  /**
   * A coordinate, a JavaScript number that the model never computes with.
   * It is identified by its printed text, which a number survives unchanged
   * (reading the text back gives the same number), so printing it gives `text`.
   */
  datatype Coord = Coord(text: string)

  /** A `[lat, lng]` pair. */
  datatype Point = Point(lat: Coord, lng: Coord)

  /** A choice of an option; `labelText` is the source's `label` (a Dafny keyword). */
  datatype Choice = Choice(labelText: string, price: real)

  /** Radio buttons or check boxes; both keep at most one choice per option. */
  datatype OptionKind = Single | Multiple

  datatype ProductOption = ProductOption(name: string, kind: OptionKind, required: bool, choices: seq<Choice>)

  /** `price` is the already parsed `parseFloat(product.price)`. */
  datatype Product = Product(id: int, name: string, price: real, options: seq<ProductOption>)

  datatype SelectedOption = SelectedOption(name: string, choice: string, price: real)

  datatype CartItem = CartItem(product: Product, quantity: int, selectedOptions: seq<SelectedOption>, subtotal: real)

  datatype OrderStatus = Pending | Preparing | Ready | OutForDelivery | Delivered | Cancelled

  /** An order as the client receives it; its status is an unchecked string. */
  datatype Order = Order(
    id: int,
    userId: string,
    status: string,
    total: string,
    deliveryAddress: Option<string>,
    deliveryLat: Option<string>,
    deliveryLng: Option<string>,
    notes: Option<string>)

  /** A `driverLocation` event; the order id travels as a string. */
  datatype DriverLocation = DriverLocation(orderId: string, lat: Coord, lng: Coord)

  /** A signed-in user; `role` is `None` when the session's role is not a string. */
  datatype Session = Session(userId: string, role: Option<string>)

  /** The wire name of a status. */
  function StatusName(s: OrderStatus): string {
    match s
    case Pending => "pending"
    case Preparing => "preparing"
    case Ready => "ready"
    case OutForDelivery => "out_for_delivery"
    case Delivered => "delivered"
    case Cancelled => "cancelled"
  }

  /** The status a wire name denotes, if it denotes one. */
  function ParseStatus(t: string): (r: Option<OrderStatus>)
    ensures forall s :: r == Some(s) <==> t == StatusName(s)
  {
    if t == "pending" then Some(Pending)
    else if t == "preparing" then Some(Preparing)
    else if t == "ready" then Some(Ready)
    else if t == "out_for_delivery" then Some(OutForDelivery)
    else if t == "delivered" then Some(Delivered)
    else if t == "cancelled" then Some(Cancelled)
    else None
  }

  /** Distinct statuses have distinct wire names. */
  lemma StatusNameInjective(a: OrderStatus, b: OrderStatus)
    requires StatusName(a) == StatusName(b)
    ensures a == b
  {
    assert ParseStatus(StatusName(a)) == Some(a);
  }
}

=== FILE: wrappers.dfy ===
/** The optional value used wherever the client code has `null` or `undefined`. */
module Wrappers {

  datatype Option<+T> = None | Some(value: T) {

    /** Returns the wrapped value, or `default` when there is none. */
    function GetOr(default: T): T {
      match this
      case Some(v) => v
      case None => default
    }
  }
}
